=== FILE: README.md ===
# Chanakya Downloader — a Dafny model of the download service core

The service lets a client analyse a video URL, pick a format, start a
background download job, poll its progress, cancel it, and finally fetch the
produced file. This project models, as immutable datatypes and pure
functions, the parts of it that decide something:

- **Title sanitiser** (`sanitize_filename`): keeps ASCII letters, digits,
  space, `_`, `-` and `.`, drops trailing spaces, falls back to
  `youtube_download`. Module `Sanitize`.
- **Format normaliser** (`get_clean_formats`): the validity and container
  filter, the mp3 rewrite of audio-only formats, the size in hundredths of a
  MiB, and the deduplication by `audio_<abr>` / `video_<height>` key. The
  insertion-ordered dictionary is an association list (`Formats.Table`).
  Module `Formats`.
- **Progress hook** (`make_progress_hook`): truncated, clamped percentage,
  and "finished" means 100. Module `Progress`.
- **Engine options** (`ydl_base_opts`, the option choice and output stem of
  `perform_download`). Module `DownloadOptions`.
- **Job registry** (`active_downloads`) as a sequential state machine:
  start, cancel, progress, the progress hook's writes, the worker's
  completion, and the file fetch with its cleanup. Module `Registry`. The
  invariant every run keeps and the lifecycle guarantees are in module
  `Lifecycle`.
- **Web client helpers** (`formatDuration`, `filteredFormats`, the saved
  file name). Module `Frontend`.
- **Extension cookie export**: cookies to tab-separated cookies.txt lines.
  Module `CookieExport`.

Helper modules: `Common` (Option, Python/JavaScript truthiness), `Decimal`
(number printing and parsing), `Text` (join and split on one character).

Modelling choices:

- The worker pool and the join on a job's future become an explicit
  "worker finished" step. A fetch of a job may only follow it. This is the
  precondition of `Registry.Fetch`, and `Lifecycle.Step` refuses a fetch
  that comes before it.
- A worker can also end by raising before its `try` (backend/app.py:165-191
  read the title, the format fields and the options there; a selected format
  that is not an object raises at line 171). That is the "worker crashed"
  step, `Registry.WorkerCrash`. Joining such a worker in `get_file` raises
  again, so the fetch answers 500 and changes nothing.
- `Lifecycle.Step` and `Lifecycle.Run` take the version of the worker's end
  as a parameter: `AsWritten` or `Corrected` (see "Findings"). The
  invariant `Lifecycle.Sound` holds for both. The stronger `Lifecycle.Valid`
  holds only for the corrected one.
- The job directories on disk are a set of paths in the state
  (`Server.dirs`). The worker's directory exists once the worker has run, unless it raised before making it.
  `rmtree` removes a path from the set.
- The file the worker found is a record field `Artifact(path, size)`.
  `size` is what `os.path.getsize` reports at fetch time.
- Fresh job ids (`uuid4`) and the random file-name suffix are parameters.
- A stream's cleanup runs only after the client has read it to the end
  (`consumed`). The code places `cleanup_dir()` after the generator's loop,
  so an abandoned stream leaves its directory behind.
- The normaliser compares sizes as the code does, after rounding to MiB
  with two decimals. Dividing by 2^20 is exact in binary floating point,
  and Python rounds that exact value half-to-even. So the size is modelled
  exactly as the integer number of hundredths of a MiB (`Formats.CentiMib`).

The code behaves as follows, and so does the model:

- `cancel` only sets the cancel flag. It neither removes the record nor
  deletes the directory eagerly.
- While downloading with no known total, progress is set to 0, not kept at
  the last value. Progress can also go down.
- The normaliser keys on the raw height and bitrate. It does not bucket them
  to standard values and emits no labels.
- Abandoning a stream does not clean up its directory.

## Model

| member | source | states |
|---|---|---|
| Sanitize.TrimEnd | backend/app.py:32 | `rstrip()` on spaces: the result is a prefix of the text, everything dropped is a space, the result does not end in a space, and it is empty exactly when the text is all spaces. |
| Sanitize.SanitizeFilename | backend/app.py:31-32 | The result is never empty, holds only allowed characters, and never ends in a space. It is `youtube_download` when only spaces survive the filter `KeepAllowed`. Otherwise it is the filtered title with its trailing spaces removed. |
| Sanitize.KeepAllowed | backend/app.py:32 | The filter keeps only allowed characters and never lengthens the title. `KeepAllowedAppend` and `KeepAllowedCounts` state that it keeps each allowed character, in order. |
| Sanitize.KeepAllowedAppend | backend/app.py:32 | The filter keeps the title's order: the filtered concatenation of two strings is the concatenation of the filtered strings, and a single character is kept exactly when it is allowed. |
| Sanitize.KeepAllowedCounts | backend/app.py:32 | Each allowed character stays as often as it occurs in the title, and every other character is dropped. |
| Sanitize.SanitizeIdempotent | backend/app.py:31-32 | Sanitising a sanitised title returns it unchanged. |
| Formats.CentiMib | backend/app.py:61 | The reported size is the whole number of hundredths of a MiB nearest to the byte size, with ties going to the even one. |
| Formats.Clean | backend/app.py:40-70 | A format survives exactly when its id, extension and size are truthy and it is mp4, or audio-only m4a/webm. A survivor keeps its id. Its extension is mp4 or mp3, and mp3 exactly when it is audio-only. Its key is `audio_<abr>` for audio-only formats and `video_<height>` otherwise. Its size is `CentiMib` of the byte count. It needs a merge exactly when it is video-only. Its resolution is the height when that is truthy, else none. It carries `abr` only when it is audio-only. The codecs pass through unchanged. |
| Formats.Survivors | backend/app.py:39-68 | The loop's skip-and-clean pass: never longer than the input. `SurvivorsClean` and `SurvivorsAppend` state that it is the cleaned surviving formats, in input order. |
| Formats.SurvivorsClean | backend/app.py:39-60 | The survivor list holds exactly the cleaned forms of the surviving input formats, in input order and once per surviving format: splitting the input anywhere splits the survivor list at the same place, and one format contributes its cleaned entry exactly when it survives. |
| Formats.SurvivorsAppend | backend/app.py:39-60 | The loop keeps input order: the survivors of a concatenation are the survivors of the first part followed by those of the second. |
| Formats.Insert | backend/app.py:70-72 | A key not yet seen is appended. For a known key, the entry is replaced in place only by a strictly smaller one. Every other entry is unchanged. |
| Formats.Table | backend/app.py:70-74 | The dictionary built by the loop, as its values in insertion order: never longer than the survivors. `TableKeys` and `TableKeepsFirstMinimum` state its keys and entries. |
| Formats.TableKeys | backend/app.py:70-74 | The output keys are the survivors' keys, each once, in the order in which each was first seen. |
| Formats.TableKeepsFirstMinimum | backend/app.py:71-72 | Each output entry is the smallest survivor with its key. Among equally small ones it is the first seen. |
| Formats.GetCleanFormats | backend/app.py:35-74 | A missing list gives the empty list, and the result is never longer than the input. `GetCleanFormatsSpec` states the rest. |
| Formats.GetCleanFormatsSpec | backend/app.py:35-74 | Summary of the normaliser: each entry comes from a surviving input format, the keys are distinct and in first-seen order, and each entry is the first minimum for its key. A missing list gives the empty list. |
| Formats.TableEntriesClean | backend/app.py:39-72 | Every output entry is the cleaned form of a surviving raw format. |
| Formats.CleanFormatsShape | backend/app.py:48-60 | Every offered format has a non-empty id. Its extension is mp4 or mp3, and mp3 exactly when it is audio-only. |
| Formats.SameHeightKeepsSmaller | backend/app.py:58-74 | Worked example: two 720p mp4 formats of 50,000,000 and 40,000,000 bytes become one entry, format "b", size 38.15 MiB, resolution 720. |
| Progress.TruncDiv | backend/app.py:82 | `int(a / b)` truncates toward zero, bounded by the quotient's defining inequalities for either sign. |
| Progress.Clamp | backend/app.py:84 | `max(0, min(100, p))` lies in 0..100, equals `p` inside that range, and is 0 below it and 100 above it. |
| Progress.Total | backend/app.py:81 | The total is `total_bytes` when that is truthy. Otherwise it is `total_bytes_estimate`, with a missing estimate read as 0. |
| Progress.Percent | backend/app.py:80-84 | The stored percentage lies in 0..100, and it is 0 when no positive total is known. |
| Progress.HookUpdate | backend/app.py:79-88 | Only "downloading" and "finished" events write progress. "downloading" writes `Percent` of the event and "finished" writes 100. Every written value lies in 0..100. |
| Progress.PercentIsFloor | backend/app.py:80-84 | When downloaded is between 0 and a positive total, the percentage is the whole number of hundredths downloaded. |
| Progress.CompleteIsHundred | backend/app.py:82-84 | A download whose byte count equals its total reports 100. |
| Progress.PercentMonotone | backend/app.py:80-84 | For a fixed total, more bytes downloaded never lowers the percentage. |
| DownloadOptions.BaseOptions | backend/app.py:93-105 | Five retries, five fragment retries, five concurrent fragments, the fixed user agent, quiet, no playlist, IPv4. The cookie file is passed exactly when one is given. |
| DownloadOptions.ChooseOptions | backend/app.py:171-191 | The base options are kept: five retries of each kind, the fixed user agent, quiet, no playlist, IPv4, and the cookie file exactly when one is given. An audio-only selection gets the mp3/192 extraction postprocessor, even when it is also marked for merging. A video-only selection fetches `<id>+bestaudio[ext=m4a]` merged and remuxed to mp4. Any other selection is fetched as given. |
| DownloadOptions.MergeSelectorSplits | backend/app.py:189-190 | The merge selector splits on '+' back into the format id and the audio selector. |
| DownloadOptions.OutputStem | backend/app.py:165-167 | The output stem is the sanitised title, '_', then the random suffix, which can be read back from its end. |
| DownloadOptions.StemsDiffer | backend/app.py:167 | Two jobs with the same title but different suffixes get different output stems. |
| Registry.JobDirsDistinct | backend/app.py:24-28 | Distinct jobs get distinct directories. |
| Registry.Basename | backend/app.py:291 | The served name contains no '/'. It is a suffix of the path, and is either the whole path or preceded by a '/'. |
| Registry.BasenameAfterLastSlash | backend/app.py:291 | The served name is exactly the part of the path after its last '/'. |
| Registry.StartDownload | backend/app.py:214-240 | A missing URL or format gives the 400 error and changes nothing. Otherwise the new id gets a record with progress 0, no file, no directory, the cancel flag clear, the submitted arguments and the user's cookie file. Every other record stays as it was. |
| Registry.Cancel | backend/app.py:243-251 | An unknown id is not found and changes nothing. Otherwise only the cancel flag is set, and the record stays in the registry. |
| Registry.GetProgress | backend/app.py:254-259 | An unknown id is not found. Otherwise the answer is the stored percentage. |
| Registry.ApplyHook | backend/app.py:77-88 | The hook writes only the progress of its own job. It does nothing for an id no longer in the registry or for an event other than "downloading" or "finished". |
| Registry.WorkerOptions | backend/app.py:164-191 | The worker's output template lies in the job's own directory and uses the job's output stem. The engine gets a cookie file exactly when the one resolved at start is truthy, and then that one. The base fields hold: five retries, five fragment retries, five concurrent fragments, quiet, no playlist, IPv4, and the client header. An audio-only selection gets the selected format id and the mp3 postprocessor, with no merge. Otherwise a merge-requiring selection gets `<id>+bestaudio[ext=m4a]` with mp4 merge and remux. Any other selection gets the selected format id alone. |
| Registry.WorkerFinishAsWritten | backend/app.py:198-209 | As written: the file path and the job directory are recorded only when a file was found and the job was not cancelled. The directory exists on disk either way. Nothing else changes: not the rest of this record, not the other records, and not the cookie files. |
| Registry.WorkerFinish | backend/app.py:198-209 | Corrected: the job directory is always recorded. A file is recorded only when one was found and the job was not cancelled. Nothing else changes: not the rest of this record (progress, cancel flag, crash flag, submitted arguments), not the other records, and not the cookie files. |
| Registry.WorkerCrash | backend/app.py:164-191 | A worker that raises before its `try` records nothing. It marks the job as ended by an exception, and the job directory exists exactly when it was made before the exception. |
| Registry.CleanupDir | backend/app.py:273-279 | Removes the recorded directory, if there is one, and nothing else. |
| Registry.Fetch | backend/app.py:262-307 | An unknown id is not found and changes nothing. A worker that raised makes the join raise again: the answer is 500 and nothing changes. Otherwise a set cancel flag always gives "cancelled", even when a file exists. Without it, a missing file or one under 1024 bytes gives "not found or empty". Otherwise the file is streamed under its base name. In these three outcomes the record is removed. |
| Lifecycle.Step | backend/app.py:164-307 | Start, cancel and hook events can always happen. A worker can end, by returning or raising, exactly when its job is registered and its worker has not ended yet, and afterwards it is marked ended. A fetch can happen exactly when the job is unknown or its worker has ended: the fetch waits for the worker. |
| Lifecycle.StepPreservesSound | backend/app.py:164-307 | With either worker, as written or corrected, every operation keeps the service sound. Progress stays in 0..100. An unfinished job has no file, no directory on record and no crash. A recorded directory is the job's own, and a recorded file comes with it. A crashed worker recorded neither. A worker that finished without crashing has its directory on disk. |
| Lifecycle.RunPreservesSound | backend/app.py:164-307 | With either worker, every sequence of operations from a sound state ends in a sound state. |
| Lifecycle.StepPreservesValid | backend/app.py:164-307 | Corrected worker: every operation keeps the stronger invariant, which adds that a worker that finished without crashing has its own directory on record. |
| Lifecycle.RunPreservesValid | backend/app.py:164-307 | Corrected worker: every sequence of operations from a valid state ends in a valid state. |
| Lifecycle.UnknownJobNotFound | backend/app.py:246-266 | Cancel, progress and fetch of an id not in the registry each answer 404 and change nothing. |
| Lifecycle.FetchForgetsJob | backend/app.py:266-302 | After a fetch of a known job whose worker returned, in any outcome, progress, cancel and another fetch of that id are all not found. A job whose worker raised is never forgotten: its fetch answers 500 and changes nothing, and progress still finds it. |
| Lifecycle.FetchRemovesDirectory | backend/app.py:273-300 | Corrected worker: a fetch removes the job's directory on every path of a worker that returned, except a stream the client abandoned. After a worker that raised, the fetch changes nothing. |
| Lifecycle.CancelWinsOverCompletion | backend/app.py:281-284 | With either worker, a cancel that arrives after the worker produced a good file still wins: the fetch answers "cancelled", and the record and directory are removed. |
| Lifecycle.CancelBeforeFinishNeverStreams | backend/app.py:204-206 | With either worker, a job cancelled before its worker finishes never has its file recorded, and its fetch answers "cancelled" and removes the record. The directory is removed exactly when the worker is the corrected one. |
| Lifecycle.HappyPath | backend/app.py:214-307 | With either worker, for any fresh job id, url, format and title, the run succeeds: start, the hook reports "finished", and the worker finds a file of at least 1024 bytes. Progress is then 100. A fetch read to the end streams the file under its base name and leaves the service exactly as before the start. |
| Lifecycle.FetchStreamsStep | backend/app.py:291-302 | Fetching a finished, not cancelled job with a large enough file streams it under its base name. It removes the record, and removes the directory once the stream is read. |
| Lifecycle.UnrecordedOutputLeaksDirectoryAsWritten | backend/app.py:204-289 | As written: for a job cancelled before its worker finished, or one that produced nothing, the fetch removes the record but leaves the directory on disk. |
| Lifecycle.CancelledJobLeaksDirectoryAsWritten | backend/app.py:243-289 | As written, a concrete case: start, cancel, the worker finds a file, fetch. The answer is "cancelled", the registry is empty, and the job's directory is still on disk. The state after the worker already breaks the corrected invariant. |
| Frontend.SecondsPart | frontend/src/App.js:176 | JavaScript's `%` by 60 equals the usual remainder for non-negative input, and takes the dividend's sign for negative input. |
| Frontend.FormatDuration | frontend/src/App.js:173-178 | The label is "-" exactly when the duration is missing or zero. |
| Frontend.SecondsText | frontend/src/App.js:177 | The seconds get a `0` in front below 10, so a single digit prints as two characters. `SecondsTextTwoDigits` states the full two-digit property. |
| Frontend.SecondsTextTwoDigits | frontend/src/App.js:177 | Seconds 0..59 print as exactly two digits that read back as the same number. |
| Frontend.FormatDurationPositive | frontend/src/App.js:175-177 | For a positive number of seconds, the label is the minutes, ':' and two digits of seconds, and it reads back as the input: minutes*60 + seconds. |
| Frontend.FilterTab | frontend/src/App.js:185-187 | The "video" tab keeps exactly the non-audio mp4 formats. Any other tab keeps exactly the audio-only mp3 formats. Nothing else is added. |
| Frontend.FilterTabAppend | frontend/src/App.js:185-187 | `filter` keeps the list's order: the filtered concatenation of two lists is the concatenation of the filtered lists, and a single format is kept exactly when it belongs to the tab. |
| Frontend.FilterTabCounts | frontend/src/App.js:185-187 | A format of the tab stays as often as it occurs, and any other format is dropped. |
| Frontend.InsertBy | frontend/src/App.js:188-190 | Inserting one format adds exactly that format to the list. |
| Frontend.SortFormats | frontend/src/App.js:188-190 | The sort is a permutation of its input. |
| Frontend.SortFormatsSorted | frontend/src/App.js:188-190 | The sort obeys the comparator: formats without merge come first, and resolution does not increase within a group. |
| Frontend.SortFormatsStable | frontend/src/App.js:188-190 | The sort is stable: formats that compare equal keep their input order. |
| Frontend.FilteredFormats | frontend/src/App.js:183-191 | A missing video or format list gives the empty list. Every listed format is one of the input formats and belongs to the tab. `FilteredFormatsSpec` states the order. |
| Frontend.FilteredFormatsSpec | frontend/src/App.js:183-191 | A tab's list is a permutation of that tab's formats. Formats without merge come before those needing one, and resolution (missing counts as 0) does not increase within a group. Ties keep input order. A missing video or format list gives the empty list. |
| Frontend.OfferedFormatsInOneTab | frontend/src/App.js:186 | Every format the service offers appears on exactly one of the video and audio tabs. |
| Frontend.StripReserved | frontend/src/App.js:128 | Removing reserved characters keeps exactly the other characters of the title. |
| Frontend.StripReservedAppend | frontend/src/App.js:128 | The removal keeps the title's order: the stripped concatenation of two strings is the concatenation of the stripped strings, and a single character is kept exactly when it is not reserved. |
| Frontend.DownloadFilename | frontend/src/App.js:128 | The saved name is `ChanakyaMusic_`, then the title (or `youtube_download`) with no reserved characters, then '.', then the extension (or `mp4`). |
| Frontend.StripReservedCounts | frontend/src/App.js:128 | Every non-reserved character stays in the title as often as it occurred, and no reserved character stays. |
| Frontend.StripReservedIdentity | frontend/src/App.js:128 | A title is kept unchanged exactly when it holds no reserved character. |
| CookieExport.ExportCookies | yt-extension/background.js:5-27 | A missing or empty cookie list gives the error "No cookies found". Any other list succeeds. |
| CookieExport.Flag | yt-extension/background.js:16-18 | A flag column reads "TRUE" exactly when the flag is set, and "FALSE" otherwise. |
| CookieExport.Expiration | yt-extension/background.js:19 | A missing or zero expiration is written "0". Any other is written in decimal and reads back as that date. |
| CookieExport.CookieLine | yt-extension/background.js:13-22 | One cookie's line. When no text column holds a tab or newline, splitting it on tabs gives back the seven columns. |
| CookieExport.Fields | yt-extension/background.js:14-22 | The seven columns are domain, host-only flag, path, secure flag, expiration, name and value, in that order. |
| CookieExport.Lines | yt-extension/background.js:13-23 | One line per cookie, in input order. |
| CookieExport.ExportRoundTrip | yt-extension/background.js:13-23 | When no column holds a tab or newline, splitting the text on newlines and then on tabs gives back each cookie's seven columns, one line per cookie, in order. |
| CookieExport.ExportNoTrailingNewline | yt-extension/background.js:23 | For a non-empty list whose last cookie has no tab or newline in any column, the exported text does not end in a newline. |

## Findings

| source | as written | input that shows it | evidently intended | confidence | as-written member | corrected member |
|---|---|---|---|---|---|---|
| backend/app.py:204-206 | The worker stores `job_dir` in the record only when it saves a file path. `get_file`'s `cleanup_dir` removes only the stored `job_dir`. | Start a job, cancel it before the worker ends (or let the download produce nothing), let the worker end, then fetch. The answer is "cancelled" (or "not found or empty") and the record is removed, but the job directory and any downloaded file stay under `ytjobs/<id>`. | Every terminal fetch removes the job's directory; the code calls `cleanup_dir()` on both error paths. | high, not executed | Lifecycle.CancelledJobLeaksDirectoryAsWritten | Lifecycle.FetchRemovesDirectory |

The corrected worker (`Registry.WorkerFinish`) always records the job
directory. The as-written worker is `Registry.WorkerFinishAsWritten`, and
`Lifecycle.UnrecordedOutputLeaksDirectoryAsWritten` states the leak for
every such input. `Lifecycle.Step` runs either one. `Lifecycle.Sound` holds
for both, and `Lifecycle.Valid`, which adds that a finished worker's
directory is on record, only for the corrected one. A worker that raises
before its `try` leaves its record and directory in place with either
version, because the fetch re-raises before it can remove them.

## Left out

- The extraction engine and ffmpeg: `extract_info`, `download` and the
  `shutil.which("ffmpeg")` lookup are foreign calls. The engine's effect is
  the worker-finished step's optional file and the hook events.
- Choosing the newest of the files matching the output stem (glob, mtime
  sort) is filesystem work. The worker step receives the chosen file.
- Creating the job directory, writing cookie files in `upload_cookies`, and
  the `/api/info`, `/health`, `/api/upload-cookies` routes are I/O and web
  plumbing. `get_info` only passes the engine's list to the normaliser.
- Flask routing, JSON bodies and CORS are left out. Statuses are kept only
  as numbers (`Registry.FetchStatus` and its siblings).
- Threads, the `Event` and `future.result()` are left out. They become
  sequential steps, so interleavings within one step are not modelled.
- Floats: the MiB size is modelled as exact integer hundredths. The client's
  `formatFileSize`, non-integer durations, bit rates printed as keys, and
  non-integer cookie expirations are left out.
- React rendering, axios, polling with timers, `localStorage`,
  `crypto.randomUUID`, `chrome.cookies.getAll` and the extension's
  content-script relay are UI or browser plumbing with no logic to model.
- Formats.KeyOf: an integer bit rate and the equal float (128 and 128.0)
  print as different keys in Python but are one value here.
- Sanitize.SanitizeFilename: `isalnum` is taken as ASCII letters and
  digits. Python also accepts non-ASCII letters and digits.
- Progress.Percent: the exact quotient is used. Python's float division
  could round a quotient just below an integer up to it when byte counts
  exceed 2^53. A `downloaded_bytes` of `None`, which would raise in the hook,
  is read as 0.
- Registry.WorkerCrash: which malformed requests make the worker raise is
  not modelled. The crash is a step of its own that any running job may
  take.
- Registry.Basename: the name is split on '/' only, as `os.path.basename` does on POSIX systems. On Windows, `\` also separates path parts, and that is not modelled.
- Registry.Fetch: a recorded file is taken to still exist. The
  `os.path.exists` check for a file removed by someone else is not modelled.
- Registry.StartDownload: an empty JSON object as the selected format is
  falsy in Python. The caller must pass it as a missing format (`None`).
- DownloadOptions.BaseOptions: the check that the cookie file exists on
  disk is not modelled. A given cookie path is always passed on.
- Frontend.FormatDuration: only whole seconds are modelled. `NaN` is not
  modelled.
- CookieExport.Expiration: only whole-second expiration dates are modelled.
  JavaScript prints fractional dates with their decimals.

=== FILE: common.dfy ===
/** Shared wrapper types, and the regrouping of concatenations that the
    filters' proofs use. `Option` stands for a JSON field or Python value
    that may be absent (`None`, `null`, `undefined`). */
module Common {

  datatype Option<+T> = None | Some(value: T) {

    /** The wrapped value, or `default` when absent. */
    function GetOr(default: T): T {
      match this
      case Some(v) => v
      case None => default
    }
  }

  /** Truthiness of an optional string: absent and empty are both falsy. */
  predicate TruthyText(s: Option<string>) {
    s.Some? && s.value != ""
  }

  /** Truthiness of an optional number: absent and zero are both falsy. */
  predicate TruthyInt(n: Option<int>) {
    n.Some? && n.value != 0
  }

  /** A head followed by two parts is the head with the first part,
      followed by the second. */
  lemma Regroup<T>(h: seq<T>, x: seq<T>, y: seq<T>, whole: seq<T>, left: seq<T>)
    requires whole == h + (x + y) && left == h + x
    ensures whole == left + y
  {
    assert h + (x + y) == (h + x) + y;
  }

  /** Two parts followed by a tail are the first part, followed by the
      second with the tail. */
  lemma RegroupRight<T>(x: seq<T>, y: seq<T>, t: seq<T>, whole: seq<T>, right: seq<T>)
    requires whole == (x + y) + t && right == y + t
    ensures whole == x + right
  {
    assert (x + y) + t == x + (y + t);
  }
}

=== FILE: cookies.dfy ===
/** The browser extension's cookie export: the cookies of the video site,
    written one per line in the tab-separated cookies.txt layout that the
    extraction engine reads. */
module CookieExport {
  import opened Common
  import Decimal
  import Text

  /** The fields of a browser cookie that the export reads. A missing
      `expirationDate` (a session cookie) is `None`. */
  datatype Cookie = Cookie(
    domain: string,
    hostOnly: bool,
    path: string,
    secure: bool,
    expirationDate: Option<int>,
    name: string,
    value: string)

  /** The message sent back to the page. */
  datatype Response = Success(cookies: string) | Failure(error: string)

  const NoCookies := "No cookies found"

  function Flag(b: bool): (s: string)
    ensures s == "TRUE" <==> b
    ensures s == "FALSE" <==> !b
  {
    if b then "TRUE" else "FALSE"
  }

  /** The expiration column: a missing or zero date is written "0",
      any other date in decimal, and reads back as that date. */
  function Expiration(e: Option<int>): (s: string)
    ensures !TruthyInt(e) ==> s == "0"
    ensures TruthyInt(e) ==>
      && |s| >= 1
      && (s[0] == '-' ==> Decimal.AllDigits(s[1..]))
      && (s[0] != '-' ==> Decimal.AllDigits(s))
      && Decimal.ParseInt(s) == e.value
  {
    if TruthyInt(e) then
      Decimal.ParseIntToString(e.value);
      Decimal.IntToString(e.value)
    else "0"
  }

  /** The seven columns of one line, in cookies.txt order. */
  function Fields(c: Cookie): (f: seq<string>)
    ensures |f| == 7
    ensures f[0] == c.domain && f[2] == c.path && f[5] == c.name && f[6] == c.value
    ensures (f[1] == "TRUE" <==> c.hostOnly) && (f[1] == "FALSE" <==> !c.hostOnly)
    ensures (f[3] == "TRUE" <==> c.secure) && (f[3] == "FALSE" <==> !c.secure)
    ensures f[4] == Expiration(c.expirationDate)
  {
    [c.domain, Flag(c.hostOnly), c.path, Flag(c.secure), Expiration(c.expirationDate), c.name, c.value]
  }

  /** One line of the export: the seven columns joined by tabs. When no
      text column holds a tab, splitting the line on tabs gives the columns
      back. */
  function CookieLine(c: Cookie): (l: string)
    ensures Plain(c) ==> Text.Split(l, '\t') == Fields(c)
  {
    if Plain(c) then
      FieldsFree(c);
      Text.SplitJoin(Fields(c), '\t');
      Text.Join(Fields(c), '\t')
    else Text.Join(Fields(c), '\t')
  }

  function Lines(cs: seq<Cookie>): (ls: seq<string>)
    ensures |ls| == |cs|
    ensures forall i :: 0 <= i < |cs| ==> ls[i] == CookieLine(cs[i])
  {
    seq(|cs|, i requires 0 <= i < |cs| => CookieLine(cs[i]))
  }

  /** The export: an error when the browser returned no cookies, otherwise
      the lines of all cookies joined by newlines. */
  function ExportCookies(cookies: Option<seq<Cookie>>): (r: Response)
    ensures r.Failure? <==> cookies.None? || |cookies.value| == 0
    ensures r.Failure? ==> r.error == NoCookies
  {
    if cookies.None? || |cookies.value| == 0 then Failure(NoCookies)
    else Success(Text.Join(Lines(cookies.value), '\n'))
  }

  /** Reads a cookies.txt text back into its lines' columns. */
  function ParseCookiesTxt(text: string): seq<seq<string>> {
    var ls := Text.Split(text, '\n');
    seq(|ls|, i requires 0 <= i < |ls| => Text.Split(ls[i], '\t'))
  }

  /** The text columns hold no tab and no newline. */
  predicate Plain(c: Cookie) {
    forall s :: s in [c.domain, c.path, c.name, c.value] ==> '\t' !in s && '\n' !in s
  }

  lemma FieldsFree(c: Cookie)
    requires Plain(c)
    ensures Text.AllFree(Fields(c), '\t') && Text.AllFree(Fields(c), '\n')
  {
    var f := Fields(c);
    ExpirationFree(c.expirationDate);
    forall i | 0 <= i < 7
      ensures Text.Free(f[i], '\t') && Text.Free(f[i], '\n')
    {
      if i == 0 || i == 2 || i == 5 || i == 6 {
        assert f[i] in [c.domain, c.path, c.name, c.value];
      }
    }
  }

  /** The expiration column is a sign and digits, or "0". */
  lemma ExpirationFree(e: Option<int>)
    ensures '\t' !in Expiration(e) && '\n' !in Expiration(e)
  {
    var s := Expiration(e);
    if TruthyInt(e) {
      forall i | 0 <= i < |s|
        ensures s[i] == '-' || Decimal.IsDigit(s[i])
      {
        if s[0] == '-' && i > 0 {
          assert s[i] == s[1..][i - 1];
        }
      }
    }
  }

  lemma LineHasNoNewline(c: Cookie)
    requires Plain(c)
    ensures '\n' !in CookieLine(c)
  {
    FieldsFree(c);
    if '\n' in CookieLine(c) {
      Text.JoinChars(Fields(c), '\t', '\n');
    }
  }

  /** With plain columns the export reads back exactly: one line per cookie,
      in input order, each the seven columns of its cookie. */
  lemma ExportRoundTrip(cs: seq<Cookie>)
    requires |cs| > 0
    requires forall i :: 0 <= i < |cs| ==> Plain(cs[i])
    ensures ParseCookiesTxt(ExportCookies(Some(cs)).cookies) ==
      seq(|cs|, i requires 0 <= i < |cs| => Fields(cs[i]))
  {
    var ls := Lines(cs);
    var text := ExportCookies(Some(cs)).cookies;
    assert text == Text.Join(ls, '\n');
    forall i | 0 <= i < |cs|
      ensures Text.Free(ls[i], '\n')
    {
      LineHasNoNewline(cs[i]);
    }
    Text.SplitJoin(ls, '\n');
    var p := ParseCookiesTxt(text);
    assert |p| == |cs|;
    forall i | 0 <= i < |cs|
      ensures p[i] == Fields(cs[i])
    {
      FieldsFree(cs[i]);
      Text.SplitJoin(Fields(cs[i]), '\t');
    }
  }

  /** The export text does not end in a newline, provided the last cookie's
      columns hold no tab or newline. */
  lemma ExportNoTrailingNewline(cs: seq<Cookie>)
    requires |cs| > 0
    requires Plain(cs[|cs| - 1])
    ensures var text := ExportCookies(Some(cs)).cookies;
      |text| > 0 && text[|text| - 1] != '\n'
  {
    var ls := Lines(cs);
    var last := cs[|cs| - 1];
    var f := Fields(last);
    assert CookieLine(last) == f[0] + ['\t'] + Text.Join(f[1..], '\t');
    JoinEnds(ls, '\n');
    LineHasNoNewline(last);
    var l := ls[|ls| - 1];
    assert l[|l| - 1] in l;
  }

  /** The join of parts whose last part is non-empty ends in that part's
      last character. */
  lemma {:induction false} JoinEnds(parts: seq<string>, sep: char)
    requires |parts| > 0 && |parts[|parts| - 1]| > 0
    ensures var s := Text.Join(parts, sep);
      |s| > 0 && s[|s| - 1] == parts[|parts| - 1][|parts[|parts| - 1]| - 1]
    decreases |parts|
  {
    if |parts| > 1 {
      JoinEnds(parts[1..], sep);
    }
  }
}

=== FILE: decimal.dfy ===
/** Decimal text of integers, as Python's `str` and JavaScript's `String`
    print them, and the matching parser. */
module Decimal {

  predicate IsDigit(c: char) {
    '0' <= c <= '9'
  }

  predicate AllDigits(s: string) {
    forall i :: 0 <= i < |s| ==> IsDigit(s[i])
  }

  function DigitChar(d: nat): (c: char)
    requires d < 10
    ensures IsDigit(c)
  {
    ['0', '1', '2', '3', '4', '5', '6', '7', '8', '9'][d]
  }

  function DigitValue(c: char): (d: nat)
    requires IsDigit(c)
    ensures d < 10
  {
    (c as int - '0' as int) as nat
  }

  lemma DigitRoundTrip(d: nat)
    requires d < 10
    ensures DigitValue(DigitChar(d)) == d
  {
  }

  /** Shortest decimal text of `n`: no leading zero except for "0" itself. */
  function NatToString(n: nat): (s: string)
    ensures |s| >= 1 && AllDigits(s)
    ensures |s| > 1 ==> s[0] != '0'
    ensures n < 10 <==> |s| == 1
    decreases n
  {
    if n < 10 then [DigitChar(n)] else NatToString(n / 10) + [DigitChar(n % 10)]
  }

  /** Value of a string of decimal digits (the empty string reads as 0). */
  function ParseNat(s: string): nat
    requires AllDigits(s)
    decreases |s|
  {
    if |s| == 0 then 0 else ParseNat(s[..|s| - 1]) * 10 + DigitValue(s[|s| - 1])
  }

  /** Printing and parsing a natural number are inverse. */
  lemma {:induction false} ParseNatToString(n: nat)
    ensures ParseNat(NatToString(n)) == n
    decreases n
  {
    var s := NatToString(n);
    if n < 10 {
      DigitRoundTrip(n);
    } else {
      ParseNatToString(n / 10);
      assert s[..|s| - 1] == NatToString(n / 10);
      DigitRoundTrip(n % 10);
    }
  }

  /** Decimal text of an integer, with a leading '-' when negative. */
  function IntToString(i: int): (s: string)
    ensures |s| >= 1
    ensures i >= 0 ==> AllDigits(s)
    ensures i < 0 ==> s[0] == '-' && AllDigits(s[1..])
  {
    if i < 0 then "-" + NatToString(-i) else NatToString(i)
  }

  /** Reads back the text written by `IntToString`. */
  function ParseInt(s: string): (r: int)
    requires |s| >= 1
    requires s[0] == '-' ==> AllDigits(s[1..])
    requires s[0] != '-' ==> AllDigits(s)
  {
    if s[0] == '-' then -(ParseNat(s[1..]) as int) else ParseNat(s)
  }

  lemma ParseIntToString(i: int)
    ensures ParseInt(IntToString(i)) == i
  {
    if i < 0 {
      ParseNegative(-i);
    } else {
      ParseNonNegative(i);
    }
  }

  lemma ParseNegative(n: nat)
    requires n > 0
    ensures ParseInt(IntToString(-(n as int))) == -(n as int)
  {
    var t := NatToString(n);
    ParseNatToString(n);
    ParseSigned(t);
  }

  lemma ParseNonNegative(i: int)
    requires i >= 0
    ensures ParseInt(IntToString(i)) == i
  {
    ParseNatToString(i);
    ParseUnsigned(NatToString(i));
  }

  lemma ParseSigned(t: string)
    requires AllDigits(t)
    ensures var s := "-" + t; |s| >= 1 && s[0] == '-' && s[1..] == t && ParseInt(s) == -(ParseNat(t) as int)
  {
    var s := "-" + t;
    assert s[1..] == t;
  }

  lemma ParseUnsigned(t: string)
    requires |t| >= 1 && AllDigits(t)
    ensures t[0] != '-' && ParseInt(t) == ParseNat(t)
  {
    assert IsDigit(t[0]);
  }
}

=== FILE: formats.dfy ===
/** The format normaliser of the download service (`get_clean_formats`):
    drops formats the client cannot use, rewrites audio to mp3, and keeps
    one format per quality key, the smallest, in first-seen key order. */
module Formats {
  import opened Common

  /** One entry of the extractor's raw format list. Absent JSON fields are
      `None`; `filesize` is in bytes, `abr` in kbit/s. */
  datatype RawFormat = RawFormat(
    formatId: Option<string>,
    ext: Option<string>,
    height: Option<int>,
    filesize: Option<int>,
    vcodec: Option<string>,
    acodec: Option<string>,
    abr: Option<real>)

  /** One entry of the list sent to clients. `filesize` is in hundredths of
      a mebibyte: the integer `c` here stands for the float `c / 100`. */
  datatype CleanFormat = CleanFormat(
    formatId: string,
    ext: string,
    filesize: int,
    vcodec: Option<string>,
    acodec: Option<string>,
    audioOnly: bool,
    requiresMerge: bool,
    abr: Option<real>,
    resolution: Option<int>)

  /** The deduplication key: the string "audio_<abr>" or "video_<height>",
      where an absent value prints as "None". The two prefixes never
      collide, and printing a number is injective, so the key is its
      constructor and its argument. */
  datatype Key = AudioKey(abr: Option<real>) | VideoKey(height: Option<int>)

  /** A surviving format together with its key. */
  datatype Entry = Entry(key: Key, format: CleanFormat)

  const BytesPerMib := 1048576

  /** `round(bytes / 1048576, 2)`, scaled by 100. Dividing by a power of two
      is exact in binary floating point, and Python rounds the exact value
      to the nearest hundredth with ties to even; so the result is the
      integer nearest to bytes * 100 / 2^20, ties to the even one. */
  function CentiMib(bytes: int): (c: int)
    ensures -BytesPerMib <= 2 * (bytes * 100 - c * BytesPerMib) <= BytesPerMib
    ensures 2 * (bytes * 100 - c * BytesPerMib) == BytesPerMib ==> c % 2 == 0
    ensures 2 * (bytes * 100 - c * BytesPerMib) == -BytesPerMib ==> c % 2 == 0
  {
    var q := (bytes * 100) / BytesPerMib;
    var rem := (bytes * 100) % BytesPerMib;
    if 2 * rem > BytesPerMib then q + 1
    else if 2 * rem < BytesPerMib then q
    else if q % 2 == 0 then q
    else q + 1
  }

  predicate IsAudioOnly(f: RawFormat) {
    f.vcodec == Some("none") && f.acodec != Some("none")
  }

  predicate IsVideoOnly(f: RawFormat) {
    f.vcodec != Some("none") && f.acodec == Some("none")
  }

  /** Only mp4, and audio-only m4a or webm (converted later), are offered. */
  predicate Playable(f: RawFormat) {
    f.ext == Some("mp4") || (IsAudioOnly(f) && (f.ext == Some("m4a") || f.ext == Some("webm")))
  }

  /** The format passes the validity and container filters. */
  predicate Survives(f: RawFormat) {
    TruthyText(f.formatId) && TruthyText(f.ext) && TruthyInt(f.filesize) && Playable(f)
  }

  function KeyOf(f: RawFormat): Key {
    if IsAudioOnly(f) then AudioKey(f.abr) else VideoKey(f.height)
  }

  /** The cleaned entry for one raw format, or `None` when it is skipped. */
  function Clean(f: RawFormat): (r: Option<Entry>)
    ensures r.Some? <==> Survives(f)
    ensures r.Some? ==> r.value.key == KeyOf(f)
    ensures r.Some? ==> r.value.format.formatId == f.formatId.value != ""
    ensures r.Some? ==> r.value.format.ext in {"mp4", "mp3"}
    ensures r.Some? ==> (r.value.format.ext == "mp3" <==> r.value.format.audioOnly)
    ensures r.Some? ==> (r.value.format.audioOnly <==> IsAudioOnly(f))
    ensures r.Some? ==> r.value.format.filesize == CentiMib(f.filesize.value)
    ensures r.Some? ==> r.value.format.requiresMerge == IsVideoOnly(f)
    ensures r.Some? ==> r.value.format.resolution == (if TruthyInt(f.height) then f.height else None)
    ensures r.Some? ==> r.value.format.abr == (if IsAudioOnly(f) then f.abr else None)
    ensures r.Some? ==> r.value.format.vcodec == f.vcodec && r.value.format.acodec == f.acodec
  {
    if !Survives(f) then None
    else
      var audio := IsAudioOnly(f);
      Some(Entry(KeyOf(f), CleanFormat(
        f.formatId.value,
        if audio then "mp3" else f.ext.value,
        CentiMib(f.filesize.value),
        f.vcodec,
        f.acodec,
        audio,
        IsVideoOnly(f),
        if audio then f.abr else None,
        if TruthyInt(f.height) then f.height else None)))
  }

  /** The cleaned entries of the formats that survive, in input order. */
  function Survivors(fs: seq<RawFormat>): (es: seq<Entry>)
    ensures |es| <= |fs|
    decreases |fs|
  {
    if |fs| == 0 then []
    else
      var rest := Survivors(fs[..|fs| - 1]);
      match Clean(fs[|fs| - 1])
      case Some(e) => rest + [e]
      case None => rest
  }

  function KeysOf(t: seq<Entry>): (ks: seq<Key>)
    ensures |ks| == |t|
    ensures forall i :: 0 <= i < |t| ==> ks[i] == t[i].key
  {
    seq(|t|, i requires 0 <= i < |t| => t[i].key)
  }

  function Values(t: seq<Entry>): (vs: seq<CleanFormat>)
    ensures |vs| == |t|
    ensures forall i :: 0 <= i < |t| ==> vs[i] == t[i].format
  {
    seq(|t|, i requires 0 <= i < |t| => t[i].format)
  }

  predicate Distinct<K(==)>(ks: seq<K>) {
    forall i, j :: 0 <= i < j < |ks| ==> ks[i] != ks[j]
  }

  /** The distinct elements of `ks`, each at the place it first occurs. */
  function FirstSeen<K(==)>(ks: seq<K>): (r: seq<K>)
    ensures Distinct(r)
    ensures forall i :: 0 <= i < |r| ==> r[i] in ks
    ensures forall i :: 0 <= i < |ks| ==> ks[i] in r
    decreases |ks|
  {
    if |ks| == 0 then []
    else
      var p := FirstSeen(ks[..|ks| - 1]);
      var k := ks[|ks| - 1];
      if k in ks[..|ks| - 1] then p else p + [k]
  }

  /** The dictionary assignment of the loop body: a new key is appended;
      an existing key's entry is replaced, in place, only by a strictly
      smaller one. */
  function Insert(t: seq<Entry>, e: Entry): (r: seq<Entry>)
    ensures e.key !in KeysOf(t) ==> r == t + [e]
    ensures e.key in KeysOf(t) ==> |r| == |t|
    ensures e.key in KeysOf(t) && Distinct(KeysOf(t)) ==>
      forall j :: 0 <= j < |t| ==>
        r[j] == if t[j].key == e.key && t[j].format.filesize > e.format.filesize then e else t[j]
    decreases |t|
  {
    if |t| == 0 then [e]
    else if t[0].key == e.key then
      if t[0].format.filesize > e.format.filesize then [e] + t[1..] else t
    else
      assert KeysOf(t)[1..] == KeysOf(t[1..]);
      [t[0]] + Insert(t[1..], e)
  }

  /** The dictionary after the loop has seen the entries `es`. */
  function Table(es: seq<Entry>): (t: seq<Entry>)
    ensures |t| <= |es|
    decreases |es|
  {
    if |es| == 0 then [] else Insert(Table(es[..|es| - 1]), es[|es| - 1])
  }

  /** `get_clean_formats(formats)`; an absent list is empty. */
  function GetCleanFormats(formats: Option<seq<RawFormat>>): (r: seq<CleanFormat>)
    ensures formats.None? ==> r == []
    ensures |r| <= |formats.GetOr([])|
  {
    Values(Table(Survivors(formats.GetOr([]))))
  }

  /** Every entry of `Survivors` is the cleaned form of an input format,
      every surviving format contributes its entry, and the loop keeps the
      input order: splitting the input anywhere splits the survivors at the
      same place, and one format gives its entry exactly when it survives. */
  lemma {:induction false} SurvivorsClean(fs: seq<RawFormat>)
    ensures forall e :: e in Survivors(fs) ==> exists f :: f in fs && Clean(f) == Some(e)
    ensures forall f :: f in fs && Survives(f) ==> Clean(f).value in Survivors(fs)
    ensures forall k :: 0 <= k <= |fs| ==> Survivors(fs) == Survivors(fs[..k]) + Survivors(fs[k..])
    ensures forall i :: 0 <= i < |fs| ==>
      Survivors(fs[i..i + 1]) == if Survives(fs[i]) then [Clean(fs[i]).value] else []
    decreases |fs|
  {
    forall k | 0 <= k <= |fs|
      ensures Survivors(fs) == Survivors(fs[..k]) + Survivors(fs[k..])
    {
      assert fs[..k] + fs[k..] == fs;
      SurvivorsAppend(fs[..k], fs[k..]);
    }
    forall i | 0 <= i < |fs|
      ensures Survivors(fs[i..i + 1]) == if Survives(fs[i]) then [Clean(fs[i]).value] else []
    {
      SurvivorsAppend(fs[i..i + 1], []);
    }
    SurvivorsMembers(fs);
  }

  /** The survivors of a concatenation are the survivors of each part, and
      a single format gives its cleaned entry exactly when it survives. */
  lemma {:induction false} SurvivorsAppend(a: seq<RawFormat>, b: seq<RawFormat>)
    ensures Survivors(a + b) == Survivors(a) + Survivors(b)
    ensures |a| == 1 ==> Survivors(a) == if Survives(a[0]) then [Clean(a[0]).value] else []
    decreases |b|
  {
    if |b| == 0 {
      assert a + b == a;
    } else {
      var p, x := b[..|b| - 1], b[|b| - 1];
      assert b == p + [x] && a + b == (a + p) + [x];
      SurvivorsAppend(a, p);
      SurvivorsSnoc(a + p, x);
      SurvivorsSnoc(p, x);
      RegroupRight(Survivors(a), Survivors(p), if Survives(x) then [Clean(x).value] else [],
                   Survivors(a + b), Survivors(b));
    }
    if |a| == 1 {
      assert a == [] + [a[0]];
      SurvivorsSnoc([], a[0]);
    }
  }

  /** One more format adds its cleaned entry exactly when it survives. */
  lemma SurvivorsSnoc(fs: seq<RawFormat>, x: RawFormat)
    ensures Survivors(fs + [x]) == Survivors(fs) + if Survives(x) then [Clean(x).value] else []
  {
    assert (fs + [x])[..|fs|] == fs && (fs + [x])[|fs|] == x;
  }

  lemma {:induction false} SurvivorsMembers(fs: seq<RawFormat>)
    ensures forall e :: e in Survivors(fs) ==> exists f :: f in fs && Clean(f) == Some(e)
    ensures forall f :: f in fs && Survives(f) ==> Clean(f).value in Survivors(fs)
    decreases |fs|
  {
    if |fs| > 0 {
      var p := fs[..|fs| - 1];
      SurvivorsMembers(p);
      forall e | e in Survivors(fs)
        ensures exists f :: f in fs && Clean(f) == Some(e)
      {
        if e in Survivors(p) {
          var f :| f in p && Clean(f) == Some(e);
          assert f in fs;
        } else {
          assert fs[|fs| - 1] in fs;
        }
      }
      forall f | f in fs && Survives(f)
        ensures Clean(f).value in Survivors(fs)
      {
        if f in p {
        } else {
          assert f == fs[|fs| - 1];
        }
      }
    }
  }

  /** The table's keys are the survivors' keys, distinct, in the order in
      which each was first seen. */
  lemma {:induction false} TableKeys(es: seq<Entry>)
    ensures KeysOf(Table(es)) == FirstSeen(KeysOf(es))
    decreases |es|
  {
    if |es| > 0 {
      var p, e := es[..|es| - 1], es[|es| - 1];
      var t := Table(p);
      assert es == p + [e];
      TableKeys(p);
      KeysSnoc(p, e);
      FirstSeenSnoc(KeysOf(p), e.key);
      FirstSeenMembers(KeysOf(p), e.key);
      if e.key in KeysOf(t) {
        InsertKeepsKeys(t, e);
      } else {
        KeysSnoc(t, e);
      }
    }
  }

  lemma KeysSnoc(t: seq<Entry>, e: Entry)
    ensures KeysOf(t + [e]) == KeysOf(t) + [e.key]
  {
  }

  lemma FirstSeenSnoc<K>(ks: seq<K>, x: K)
    ensures FirstSeen(ks + [x]) == if x in ks then FirstSeen(ks) else FirstSeen(ks) + [x]
  {
    assert (ks + [x])[..|ks|] == ks;
  }

  /** Replacing an entry in place keeps the table's keys. */
  lemma InsertKeepsKeys(t: seq<Entry>, e: Entry)
    requires e.key in KeysOf(t) && Distinct(KeysOf(t))
    ensures KeysOf(Insert(t, e)) == KeysOf(t)
  {
    var r := Insert(t, e);
    assert forall j :: 0 <= j < |t| ==> r[j].key == t[j].key;
  }

  lemma FirstSeenMembers<K>(ks: seq<K>, x: K)
    ensures x in FirstSeen(ks) <==> x in ks
  {
    var r := FirstSeen(ks);
    if x in ks {
      var i :| 0 <= i < |ks| && ks[i] == x;
      assert ks[i] in r;
    }
    if x in r {
      var j :| 0 <= j < |r| && r[j] == x;
      assert r[j] in ks;
    }
  }

  /** Entry `i` of `es` has the smallest size among entries with its key,
      and every earlier entry with that key is strictly larger. */
  ghost predicate FirstMinimum(es: seq<Entry>, i: int)
    requires 0 <= i < |es|
  {
    && (forall k :: 0 <= k < |es| && es[k].key == es[i].key ==>
          es[i].format.filesize <= es[k].format.filesize)
    && (forall k :: 0 <= k < i && es[k].key == es[i].key ==>
          es[k].format.filesize > es[i].format.filesize)
  }

  /** A first minimum stays one when a later entry is no smaller or has
      another key. */
  lemma ExtendFirstMinimum(p: seq<Entry>, e: Entry, i: int)
    requires 0 <= i < |p| && FirstMinimum(p, i)
    requires p[i].key != e.key || p[i].format.filesize <= e.format.filesize
    ensures FirstMinimum(p + [e], i)
  {
    var es := p + [e];
    assert forall k :: 0 <= k < |p| ==> es[k] == p[k];
  }

  /** A new entry is the first minimum when every earlier entry with its key
      is strictly larger. */
  lemma NewFirstMinimum(p: seq<Entry>, e: Entry)
    requires forall k :: 0 <= k < |p| && p[k].key == e.key ==> p[k].format.filesize > e.format.filesize
    ensures FirstMinimum(p + [e], |p|)
  {
    var es := p + [e];
    assert forall k :: 0 <= k < |p| ==> es[k] == p[k];
  }

  /** Every entry of `t` is the first minimum of its key in `es`. */
  ghost predicate AllFirstMinima(es: seq<Entry>, t: seq<Entry>) {
    forall j :: 0 <= j < |t| ==> exists i :: 0 <= i < |es| && es[i] == t[j] && FirstMinimum(es, i)
  }

  /** An entry of `t` that `Insert` leaves in place stays a first minimum. */
  lemma KeptEntry(p: seq<Entry>, t: seq<Entry>, e: Entry, j: int)
    requires AllFirstMinima(p, t)
    requires 0 <= j < |t|
    requires t[j].key != e.key || t[j].format.filesize <= e.format.filesize
    ensures exists i :: 0 <= i < |p| + 1 && (p + [e])[i] == t[j] && FirstMinimum(p + [e], i)
  {
    var i :| 0 <= i < |p| && p[i] == t[j] && FirstMinimum(p, i);
    ExtendFirstMinimum(p, e, i);
    assert (p + [e])[i] == t[j];
  }

  /** One loop iteration on a key not yet in the table. */
  lemma InsertNewKey(p: seq<Entry>, t: seq<Entry>, e: Entry)
    requires AllFirstMinima(p, t)
    requires e.key !in KeysOf(t)
    requires forall k :: 0 <= k < |p| ==> p[k].key in KeysOf(t)
    ensures AllFirstMinima(p + [e], Insert(t, e))
  {
    var r := Insert(t, e);
    assert r == t + [e];
    assert forall k :: 0 <= k < |p| ==> p[k].key != e.key;
    NewFirstMinimum(p, e);
    forall j | 0 <= j < |r|
      ensures exists i :: 0 <= i < |p| + 1 && (p + [e])[i] == r[j] && FirstMinimum(p + [e], i)
    {
      if j < |t| {
        assert t[j].key in KeysOf(t);
        KeptEntry(p, t, e, j);
        assert r[j] == t[j];
      } else {
        assert (p + [e])[|p|] == r[j];
      }
    }
  }

  /** One loop iteration on a key already in the table. */
  lemma InsertOldKey(p: seq<Entry>, t: seq<Entry>, e: Entry)
    requires AllFirstMinima(p, t)
    requires e.key in KeysOf(t)
    requires Distinct(KeysOf(t))
    ensures AllFirstMinima(p + [e], Insert(t, e))
  {
    var r := Insert(t, e);
    forall j | 0 <= j < |r|
      ensures exists i :: 0 <= i < |p| + 1 && (p + [e])[i] == r[j] && FirstMinimum(p + [e], i)
    {
      if t[j].key == e.key && t[j].format.filesize > e.format.filesize {
        var i :| 0 <= i < |p| && p[i] == t[j] && FirstMinimum(p, i);
        assert forall k :: 0 <= k < |p| && p[k].key == e.key ==>
          p[k].format.filesize >= p[i].format.filesize;
        NewFirstMinimum(p, e);
        assert (p + [e])[|p|] == r[j];
      } else {
        KeptEntry(p, t, e, j);
      }
    }
  }

  /** Each table entry is the first of the smallest entries seen with its
      key: replacement needs a strictly smaller size, so ties keep the
      first one. */
  lemma {:induction false} TableKeepsFirstMinimum(es: seq<Entry>)
    ensures AllFirstMinima(es, Table(es))
    decreases |es|
  {
    if |es| > 0 {
      var n := |es| - 1;
      var p, e := es[..n], es[n];
      var t := Table(p);
      assert p + [e] == es;
      assert Table(es) == Insert(t, e);
      TableKeepsFirstMinimum(p);
      TableKeys(p);
      assert Distinct(KeysOf(t));
      if e.key in KeysOf(t) {
        InsertOldKey(p, t, e);
      } else {
        forall k | 0 <= k < |p|
          ensures p[k].key in KeysOf(t)
        {
          assert KeysOf(p)[k] == p[k].key;
        }
        InsertNewKey(p, t, e);
      }
    }
  }

  /** What `get_clean_formats` returns, in terms of its raw input: every
      entry is the cleaned form of a surviving raw format; the entries'
      keys are distinct and in first-seen order; and each entry is the
      first of the smallest survivors with its key. An absent list gives
      the empty result. */
  lemma GetCleanFormatsSpec(formats: seq<RawFormat>)
    ensures GetCleanFormats(None) == []
    ensures var es := Survivors(formats);
      var t := Table(es);
      && GetCleanFormats(Some(formats)) == Values(t)
      && KeysOf(t) == FirstSeen(KeysOf(es))
      && Distinct(KeysOf(t))
      && (forall j :: 0 <= j < |t| ==> CleanedFrom(formats, t[j]))
      && AllFirstMinima(es, t)
  {
    var es := Survivors(formats);
    TableKeys(es);
    TableKeepsFirstMinimum(es);
    TableEntriesClean(formats);
  }

  /** `e` is the cleaned form of a surviving format of `formats`. */
  ghost predicate CleanedFrom(formats: seq<RawFormat>, e: Entry) {
    exists f :: f in formats && Survives(f) && Clean(f) == Some(e)
  }

  /** Every entry of the table is the cleaned form of a surviving raw format. */
  lemma TableEntriesClean(formats: seq<RawFormat>)
    ensures forall j :: 0 <= j < |Table(Survivors(formats))| ==> CleanedFrom(formats, Table(Survivors(formats))[j])
  {
    forall j | 0 <= j < |Table(Survivors(formats))|
      ensures CleanedFrom(formats, Table(Survivors(formats))[j])
    {
      TableEntryClean(formats, j);
    }
  }

  lemma TableEntryClean(formats: seq<RawFormat>, j: int)
    requires 0 <= j < |Table(Survivors(formats))|
    ensures CleanedFrom(formats, Table(Survivors(formats))[j])
  {
    var es := Survivors(formats);
    var t := Table(es);
    TableKeepsFirstMinimum(es);
    SurvivorsMembers(formats);
    var i :| 0 <= i < |es| && es[i] == t[j] && FirstMinimum(es, i);
    assert es[i] in es;
  }

  /** Two 720p mp4 renditions collapse to the smaller one, whose size of
      40,000,000 bytes is reported as 38.15 MiB. */
  lemma SameHeightKeepsSmaller()
    ensures
      var a := RawFormat(Some("a"), Some("mp4"), Some(720), Some(50_000_000), Some("avc1"), Some("mp4a"), None);
      var b := RawFormat(Some("b"), Some("mp4"), Some(720), Some(40_000_000), Some("avc1"), Some("mp4a"), None);
      GetCleanFormats(Some([a, b])) ==
        [CleanFormat("b", "mp4", 3815, Some("avc1"), Some("mp4a"), false, false, None, Some(720))]
  {
    var a := RawFormat(Some("a"), Some("mp4"), Some(720), Some(50_000_000), Some("avc1"), Some("mp4a"), None);
    var b := RawFormat(Some("b"), Some("mp4"), Some(720), Some(40_000_000), Some("avc1"), Some("mp4a"), None);
    var ea := Entry(VideoKey(Some(720)),
      CleanFormat("a", "mp4", 4768, Some("avc1"), Some("mp4a"), false, false, None, Some(720)));
    var eb := Entry(VideoKey(Some(720)),
      CleanFormat("b", "mp4", 3815, Some("avc1"), Some("mp4a"), false, false, None, Some(720)));
    assert CentiMib(50_000_000) == 4768;
    assert CentiMib(40_000_000) == 3815;
    assert Clean(a) == Some(ea);
    assert Clean(b) == Some(eb);
    assert Survivors([a]) == [ea] by { assert [a][..0] == []; }
    assert Survivors([a, b]) == [ea, eb] by { assert [a, b][..1] == [a]; }
    assert Table([ea]) == [ea] by { assert [ea][..0] == []; }
    assert Table([ea, eb]) == [eb] by { assert [ea, eb][..1] == [ea]; }
  }

  /** Every offered format has an id and is either mp4 or mp3, mp3 exactly
      when it is audio-only. */
  lemma CleanFormatsShape(formats: seq<RawFormat>)
    ensures forall c :: c in GetCleanFormats(Some(formats)) ==>
      && c.formatId != ""
      && (c.ext == "mp4" || c.ext == "mp3")
      && (c.ext == "mp3" <==> c.audioOnly)
  {
    var t := Table(Survivors(formats));
    forall c | c in GetCleanFormats(Some(formats))
      ensures c.formatId != "" && (c.ext == "mp4" || c.ext == "mp3") && (c.ext == "mp3" <==> c.audioOnly)
    {
      var j :| 0 <= j < |t| && Values(t)[j] == c;
      TableEntryClean(formats, j);
      var f :| f in formats && Survives(f) && Clean(f) == Some(t[j]);
      assert c == t[j].format;
    }
  }
}

=== FILE: frontend.dfy ===
/** Pure helpers of the web client: the duration label, the per-tab format
    list, and the name of the saved file. */
module Frontend {
  import opened Common
  import Decimal
  import Text
  import Formats

  // ---- formatDuration ------------------------------------------------------

  /** JavaScript's `seconds % 60`: the remainder takes the sign of the
      dividend. */
  function SecondsPart(s: int): (r: int)
    ensures s >= 0 ==> r == s % 60
    ensures s < 0 ==> -60 < r <= 0 && (s - r) % 60 == 0
  {
    if s >= 0 then s % 60 else -((-s) % 60)
  }

  /** The seconds as printed: a '0' in front when below 10, so that a
      single digit becomes two. */
  function SecondsText(secs: int): (t: string)
    ensures secs < 10 ==> |t| > 0 && t[0] == '0'
    ensures 0 <= secs < 10 ==> |t| == 2
  {
    (if secs < 10 then "0" else "") + Decimal.IntToString(secs)
  }

  /** `formatDuration(seconds)`: "-" for a missing or zero duration,
      otherwise whole minutes (`Math.floor`), ':', and the remaining seconds,
      with a '0' put in front when they are below 10. */
  function FormatDuration(seconds: Option<int>): (r: string)
    ensures r == "-" <==> !TruthyInt(seconds)
  {
    if !TruthyInt(seconds) then "-"
    else
      var s := seconds.value;
      var m := Decimal.IntToString(s / 60);
      var r := m + ":" + SecondsText(SecondsPart(s));
      assert r[|m|] == ':';
      r
  }

  /** Reads a label of the form minutes ':' two-digit seconds back into a
      number of seconds. */
  function ParseDuration(text: string): Option<int> {
    ReadLabelParts(Text.Split(text, ':'))
  }

  function ReadLabelParts(parts: seq<string>): Option<int> {
    if |parts| == 2 && Decimal.AllDigits(parts[0]) && Decimal.AllDigits(parts[1]) && |parts[1]| == 2
    then Some(Decimal.ParseNat(parts[0]) * 60 + Decimal.ParseNat(parts[1]))
    else None
  }

  /** Seconds 0..59 print as exactly two digits that read back as them. */
  lemma SecondsTextTwoDigits(sec: int)
    requires 0 <= sec < 60
    ensures |SecondsText(sec)| == 2 && Decimal.AllDigits(SecondsText(sec))
    ensures Decimal.ParseNat(SecondsText(sec)) == sec
  {
    var t := SecondsText(sec);
    Decimal.ParseNatToString(sec);
    if sec < 10 {
      assert t == "0" + Decimal.NatToString(sec);
      assert t[..1] == "0";
      assert Decimal.ParseNat(t[..1]) == 0;
    } else {
      assert sec / 10 < 10;
    }
  }

  /** For a positive whole number of seconds the label is the minutes, ':'
      and exactly two digits of seconds, and it reads back as the input:
      minutes * 60 + seconds is the duration. */
  lemma FormatDurationPositive(s: int)
    requires s > 0
    ensures var r := FormatDuration(Some(s));
      && r == Decimal.NatToString(s / 60) + ":" + r[|r| - 2..]
      && Decimal.AllDigits(r[|r| - 2..])
      && ParseDuration(r) == Some(s)
  {
    var m, sec := s / 60, s % 60;
    var mt, st := Decimal.NatToString(m), SecondsText(sec);
    SecondsTextTwoDigits(sec);
    FormatDurationShape(s);
    Decimal.ParseNatToString(m);
    LabelParses(mt, st);
    var r := mt + ":" + st;
    assert r[|r| - 2..] == st;
  }

  lemma FormatDurationShape(s: int)
    requires s > 0
    ensures FormatDuration(Some(s)) == Decimal.NatToString(s / 60) + ":" + SecondsText(s % 60)
  {
    assert SecondsPart(s) == s % 60;
    assert Decimal.IntToString(s / 60) == Decimal.NatToString(s / 60);
  }

  /** A label of digits, ':' and two digits parses as minutes and seconds. */
  lemma LabelParses(mt: string, st: string)
    requires Decimal.AllDigits(mt) && Decimal.AllDigits(st) && |st| == 2
    ensures ParseDuration(mt + ":" + st) == Some(Decimal.ParseNat(mt) * 60 + Decimal.ParseNat(st))
  {
    SplitLabel(mt, st);
    ReadPair(mt, st);
  }

  lemma ReadPair(mt: string, st: string)
    requires Decimal.AllDigits(mt) && Decimal.AllDigits(st) && |st| == 2
    ensures ReadLabelParts([mt, st]) == Some(Decimal.ParseNat(mt) * 60 + Decimal.ParseNat(st))
  {
    var parts := [mt, st];
    assert parts[0] == mt && parts[1] == st;
  }

  lemma SplitLabel(mt: string, st: string)
    requires Decimal.AllDigits(mt) && Decimal.AllDigits(st)
    ensures Text.Split(mt + ":" + st, ':') == [mt, st]
  {
    assert Text.Join([mt, st], ':') == mt + ":" + st;
    assert ':' !in mt && ':' !in st;
    Text.SplitJoin([mt, st], ':');
  }

  // ---- filteredFormats -------------------------------------------------------

  /** The parts of the analysed video the format list reads. */
  datatype Info = Info(title: Option<string>, formats: Option<seq<Formats.CleanFormat>>)

  /** The tab filter: the "video" tab shows mp4 video, any other tab mp3 audio. */
  predicate InTab(f: Formats.CleanFormat, tab: string) {
    if tab == "video" then !f.audioOnly && f.ext == "mp4" else f.audioOnly && f.ext == "mp3"
  }

  function FilterTab(fs: seq<Formats.CleanFormat>, tab: string): (r: seq<Formats.CleanFormat>)
    ensures forall f {:trigger f in r} :: f in r <==> f in fs && InTab(f, tab)
    decreases |fs|
  {
    if |fs| == 0 then []
    else
      assert fs == [fs[0]] + fs[1..];
      (if InTab(fs[0], tab) then [fs[0]] else []) + FilterTab(fs[1..], tab)
  }

  /** The tab filter works format by format and keeps the order: a
      concatenation is filtered part by part, and a single format is kept
      exactly when it belongs to the tab. */
  lemma {:induction false} FilterTabAppend(a: seq<Formats.CleanFormat>, b: seq<Formats.CleanFormat>, tab: string)
    ensures FilterTab(a + b, tab) == FilterTab(a, tab) + FilterTab(b, tab)
    ensures |a| == 1 ==> FilterTab(a, tab) == if InTab(a[0], tab) then a else []
    decreases |a|
  {
    if |a| == 0 {
      assert a + b == b;
    } else {
      var f, t := a[0], a[1..];
      assert a == [f] + t;
      FilterTabAppend(t, b, tab);
      FilterTabStep(f, t, b, tab);
      if |a| == 1 {
        FilterTabCons(f, [], tab);
      }
    }
  }

  /** The inductive step of `FilterTabAppend`. */
  lemma FilterTabStep(f: Formats.CleanFormat, t: seq<Formats.CleanFormat>, b: seq<Formats.CleanFormat>, tab: string)
    requires FilterTab(t + b, tab) == FilterTab(t, tab) + FilterTab(b, tab)
    ensures FilterTab([f] + t + b, tab) == FilterTab([f] + t, tab) + FilterTab(b, tab)
  {
    assert [f] + t + b == [f] + (t + b);
    FilterTabCons(f, t + b, tab);
    FilterTabCons(f, t, tab);
    Regroup(if InTab(f, tab) then [f] else [], FilterTab(t, tab), FilterTab(b, tab),
            FilterTab([f] + t + b, tab), FilterTab([f] + t, tab));
  }

  lemma FilterTabCons(f: Formats.CleanFormat, fs: seq<Formats.CleanFormat>, tab: string)
    ensures FilterTab([f] + fs, tab) == (if InTab(f, tab) then [f] else []) + FilterTab(fs, tab)
  {
    assert ([f] + fs)[0] == f && ([f] + fs)[1..] == fs;
  }

  /** A format of the tab is kept as often as it occurs, any other is
      dropped. */
  lemma {:induction false} FilterTabCounts(fs: seq<Formats.CleanFormat>, tab: string, f: Formats.CleanFormat)
    ensures multiset(FilterTab(fs, tab))[f] == if InTab(f, tab) then multiset(fs)[f] else 0
    decreases |fs|
  {
    if |fs| > 0 {
      assert fs == [fs[0]] + fs[1..];
      FilterTabCounts(fs[1..], tab, f);
      FilterTabCountsStep(fs[0], fs[1..], tab, f);
    }
  }

  /** The inductive step of `FilterTabCounts`. */
  lemma FilterTabCountsStep(g: Formats.CleanFormat, t: seq<Formats.CleanFormat>, tab: string, f: Formats.CleanFormat)
    requires multiset(FilterTab(t, tab))[f] == if InTab(f, tab) then multiset(t)[f] else 0
    ensures multiset(FilterTab([g] + t, tab))[f] == if InTab(f, tab) then multiset([g] + t)[f] else 0
  {
    var h := if InTab(g, tab) then [g] else [];
    FilterTabCons(g, t, tab);
    assert multiset(FilterTab([g] + t, tab)) == multiset(h) + multiset(FilterTab(t, tab));
    assert multiset([g] + t) == multiset([g]) + multiset(t);
  }

  /** The resolution used for sorting; a missing one counts as 0. */
  function Res(f: Formats.CleanFormat): int {
    f.resolution.GetOr(0)
  }

  /** The sort key: the merge flag and the resolution. */
  datatype SortKey = SortKey(merge: bool, res: int)

  function SortKeyOf(f: Formats.CleanFormat): SortKey {
    SortKey(f.requiresMerge, Res(f))
  }

  /** The comparator is negative: `a` goes before `b` because it needs no
      merge while `b` does, or both agree on merging and `a` has the higher
      resolution. */
  predicate Before(a: Formats.CleanFormat, b: Formats.CleanFormat) {
    (!a.requiresMerge && b.requiresMerge) || (a.requiresMerge == b.requiresMerge && Res(a) > Res(b))
  }

  predicate Sorted(s: seq<Formats.CleanFormat>) {
    forall i, j :: 0 <= i < j < |s| ==> !Before(s[j], s[i])
  }

  /** `x` placed after the elements that go strictly before it and ahead of
      all others, so that it precedes the equal elements that followed it
      in the input. */
  function InsertBy(x: Formats.CleanFormat, s: seq<Formats.CleanFormat>): (r: seq<Formats.CleanFormat>)
    ensures multiset(r) == multiset(s) + multiset{x}
    decreases |s|
  {
    if |s| == 0 then [x]
    else if !Before(s[0], x) then [x] + s
    else
      assert s == [s[0]] + s[1..];
      [s[0]] + InsertBy(x, s[1..])
  }

  /** Inserting into a sorted list keeps it sorted. */
  lemma {:induction false} InsertBySorted(x: Formats.CleanFormat, s: seq<Formats.CleanFormat>)
    requires Sorted(s)
    ensures Sorted(InsertBy(x, s))
    decreases |s|
  {
    if |s| > 0 && Before(s[0], x) {
      InsertBySorted(x, s[1..]);
      var rest := InsertBy(x, s[1..]);
      forall y | y in rest
        ensures !Before(y, s[0])
      {
        assert y in multiset(rest);
        if y != x {
          assert y in s[1..];
        }
      }
    }
  }

  /** The stable sort the comparator defines (JavaScript's `Array.prototype.sort`
      is stable). */
  function SortFormats(fs: seq<Formats.CleanFormat>): (r: seq<Formats.CleanFormat>)
    ensures multiset(r) == multiset(fs)
    decreases |fs|
  {
    if |fs| == 0 then []
    else
      assert fs == [fs[0]] + fs[1..];
      InsertBy(fs[0], SortFormats(fs[1..]))
  }

  lemma {:induction false} SortFormatsSorted(fs: seq<Formats.CleanFormat>)
    ensures Sorted(SortFormats(fs))
    decreases |fs|
  {
    if |fs| > 0 {
      SortFormatsSorted(fs[1..]);
      InsertBySorted(fs[0], SortFormats(fs[1..]));
    }
  }

  /** `filteredFormats(tab)`: the formats of the tab, sorted; no list when
      there is no analysed video or it has no formats. */
  function FilteredFormats(info: Option<Info>, tab: string): (r: seq<Formats.CleanFormat>)
    ensures info.None? || info.value.formats.None? ==> r == []
    ensures forall f :: f in r ==> f in info.value.formats.value && InTab(f, tab)
  {
    if info.None? || info.value.formats.None? then []
    else
      var kept := FilterTab(info.value.formats.value, tab);
      var r := SortFormats(kept);
      assert forall f :: f in r ==> f in multiset(kept) && f in kept;
      r
  }

  /** The elements of `s` with sort key `k`, in order. */
  function WithKey(s: seq<Formats.CleanFormat>, k: SortKey): seq<Formats.CleanFormat>
    decreases |s|
  {
    if |s| == 0 then []
    else (if SortKeyOf(s[0]) == k then [s[0]] else []) + WithKey(s[1..], k)
  }

  lemma {:induction false} InsertByStable(x: Formats.CleanFormat, s: seq<Formats.CleanFormat>, k: SortKey)
    ensures WithKey(InsertBy(x, s), k) == (if SortKeyOf(x) == k then [x] else []) + WithKey(s, k)
    decreases |s|
  {
    if |s| > 0 && Before(s[0], x) {
      var r' := InsertBy(x, s[1..]);
      InsertByStable(x, s[1..], k);
      assert InsertBy(x, s) == [s[0]] + r';
      WithKeyCons(s[0], r', k);
      assert s == [s[0]] + s[1..];
      WithKeyCons(s[0], s[1..], k);
      SwapHeads(if SortKeyOf(s[0]) == k then [s[0]] else [], if SortKeyOf(x) == k then [x] else [], WithKey(s[1..], k));
    } else {
      WithKeyCons(x, s, k);
    }
  }

  lemma WithKeyCons(y: Formats.CleanFormat, s: seq<Formats.CleanFormat>, k: SortKey)
    ensures WithKey([y] + s, k) == (if SortKeyOf(y) == k then [y] else []) + WithKey(s, k)
  {
    assert ([y] + s)[1..] == s;
  }

  lemma SwapHeads<T>(a: seq<T>, b: seq<T>, w: seq<T>)
    requires a == [] || b == []
    ensures a + (b + w) == b + (a + w)
  {
    if a == [] {
      assert a + (b + w) == b + w && a + w == w;
    } else {
      assert b + (a + w) == a + w && b + w == w;
    }
  }

  /** The sort is stable: the formats sharing a sort key keep their order. */
  lemma {:induction false} SortFormatsStable(fs: seq<Formats.CleanFormat>, k: SortKey)
    ensures WithKey(SortFormats(fs), k) == WithKey(fs, k)
    decreases |fs|
  {
    if |fs| > 0 {
      SortFormatsStable(fs[1..], k);
      InsertByStable(fs[0], SortFormats(fs[1..]), k);
    }
  }

  /** What the list of a tab holds: exactly the formats of that tab, each as
      often as in the input, formats needing no merge first, resolution not
      increasing within each group, formats that sort equal in input order;
      and nothing without an analysed video or its format list. */
  lemma FilteredFormatsSpec(info: Option<Info>, tab: string)
    ensures info.None? || info.value.formats.None? ==> FilteredFormats(info, tab) == []
    ensures info.Some? && info.value.formats.Some? ==>
      var fs := info.value.formats.value;
      var r := FilteredFormats(info, tab);
      && multiset(r) == multiset(FilterTab(fs, tab))
      && (forall f :: f in r <==> f in fs && InTab(f, tab))
      && (forall i, j :: 0 <= i < j < |r| && r[i].requiresMerge ==> r[j].requiresMerge)
      && (forall i, j :: 0 <= i < j < |r| && r[i].requiresMerge == r[j].requiresMerge ==> Res(r[i]) >= Res(r[j]))
      && (forall k :: WithKey(r, k) == WithKey(FilterTab(fs, tab), k))
  {
    if info.Some? && info.value.formats.Some? {
      var fs := info.value.formats.value;
      var r := FilteredFormats(info, tab);
      SortFormatsSorted(FilterTab(fs, tab));
      forall f
        ensures f in r <==> f in fs && InTab(f, tab)
      {
        assert f in r <==> f in multiset(r);
        assert f in FilterTab(fs, tab) <==> f in multiset(FilterTab(fs, tab));
      }
      forall k
        ensures WithKey(r, k) == WithKey(FilterTab(fs, tab), k)
      {
        SortFormatsStable(FilterTab(fs, tab), k);
      }
    }
  }

  /** Every format the service offers is listed on exactly one of the two
      tabs. */
  lemma OfferedFormatsInOneTab(formats: seq<Formats.RawFormat>)
    ensures forall f :: f in Formats.GetCleanFormats(Some(formats)) ==>
      (InTab(f, "video") <==> !InTab(f, "audio"))
  {
    Formats.CleanFormatsShape(formats);
  }

  // ---- download file name --------------------------------------------------

  /** The characters the client removes from titles: \ / : * ? " < > | */
  const Reserved := "\\/:*?\"<>|"

  const FilePrefix := "ChanakyaMusic_"

  function StripReserved(s: string): (r: string)
    ensures forall c :: c in r <==> c in s && c !in Reserved
    decreases |s|
  {
    if |s| == 0 then ""
    else (if s[0] in Reserved then "" else [s[0]]) + StripReserved(s[1..])
  }

  /** The name the client saves a download under: the prefix, the title
      (or "youtube_download") without reserved characters, '.', and the
      format's extension (or "mp4"). */
  function DownloadFilename(title: Option<string>, ext: Option<string>): (r: string)
    ensures var t := StripReserved(if TruthyText(title) then title.value else "youtube_download");
      var e := if TruthyText(ext) then ext.value else "mp4";
      && |r| == |FilePrefix| + |t| + 1 + |e|
      && r[..|FilePrefix|] == FilePrefix
      && r[|FilePrefix|..|FilePrefix| + |t|] == t
      && (forall c :: c in t ==> c !in Reserved)
      && r[|r| - |e| - 1..] == "." + e
  {
    var t := StripReserved(if TruthyText(title) then title.value else "youtube_download");
    var e := if TruthyText(ext) then ext.value else "mp4";
    ConcatParts(FilePrefix, t, ".", e);
    FilePrefix + t + "." + e
  }

  lemma ConcatParts<T>(a: seq<T>, b: seq<T>, c: seq<T>, d: seq<T>)
    ensures var r := a + b + c + d;
      && |r| == |a| + |b| + |c| + |d|
      && r[..|a|] == a
      && r[|a|..|a| + |b|] == b
      && r[|r| - |c| - |d|..] == c + d
  {
    var r := a + b + c + d;
    assert r[..|a|] == a;
    assert r[|a|..|a| + |b|] == b;
    assert r[|r| - |c| - |d|..] == c + d;
  }

  /** Removing reserved characters keeps every other character, as often
      as it occurs; a reserved character never remains. */
  lemma {:induction false} StripReservedCounts(s: string, c: char)
    ensures multiset(StripReserved(s))[c] == if c in Reserved then 0 else multiset(s)[c]
    decreases |s|
  {
    if |s| > 0 {
      StripReservedCounts(s[1..], c);
      var h := if s[0] in Reserved then "" else [s[0]];
      assert StripReserved(s) == h + StripReserved(s[1..]);
      assert s == [s[0]] + s[1..];
      assert multiset(s) == multiset([s[0]]) + multiset(s[1..]);
    }
  }

  /** Removal works character by character and keeps the order: a
      concatenation is stripped part by part, and a single character is
      kept exactly when it is not reserved. */
  lemma {:induction false} StripReservedAppend(a: string, b: string)
    ensures StripReserved(a + b) == StripReserved(a) + StripReserved(b)
    ensures |a| == 1 ==> StripReserved(a) == if a[0] in Reserved then "" else a
    decreases |a|
  {
    if |a| == 0 {
      assert a + b == b;
    } else {
      var c, t := a[0], a[1..];
      assert a == [c] + t && a + b == [c] + (t + b);
      StripReservedCons(c, t + b);
      StripReservedCons(c, t);
      StripReservedAppend(t, b);
      Regroup(if c in Reserved then "" else [c], StripReserved(t), StripReserved(b),
              StripReserved(a + b), StripReserved(a));
      if |a| == 1 {
        assert t == "" && a == [c];
      }
    }
  }

  lemma StripReservedCons(c: char, s: string)
    ensures StripReserved([c] + s) == (if c in Reserved then "" else [c]) + StripReserved(s)
  {
    assert ([c] + s)[0] == c && ([c] + s)[1..] == s;
  }

  /** A title without reserved characters is kept as it is, and only then. */
  lemma {:induction false} StripReservedIdentity(s: string)
    ensures StripReserved(s) == s <==> forall c :: c in s ==> c !in Reserved
    decreases |s|
  {
    if |s| > 0 {
      StripReservedIdentity(s[1..]);
      assert s == [s[0]] + s[1..];
      if s[0] in Reserved {
        assert |StripReserved(s)| < |s| by { StripReservedShorter(s[1..]); }
      }
    }
  }

  lemma {:induction false} StripReservedShorter(s: string)
    ensures |StripReserved(s)| <= |s|
    decreases |s|
  {
    if |s| > 0 {
      StripReservedShorter(s[1..]);
    }
  }
}

=== FILE: lifecycle.dfy ===
/** The job lifecycle as a sequential state machine over the registry,
    the invariant every reachable state keeps, and the guarantees about
    cancellation and cleanup. */
module Lifecycle {
  import opened Common
  import opened Registry
  import Progress
  import DownloadOptions

  /** Which end of `perform_download` the worker runs: the code as written,
      which remembers the job directory only together with a file, or the
      corrected one, which always remembers it. */
  datatype Worker = AsWritten | Corrected

  /** What holds of one job whichever worker runs: its progress is a
      percentage; until its worker finishes it has no file, no directory on
      record and no crash; a recorded directory is the job's own, and a
      recorded file comes with it; a crashed worker recorded neither; and
      once a worker finished without crashing, the job's directory is on
      disk. */
  predicate JobSound(id: JobId, j: Job, dirs: set<string>) {
    && 0 <= j.progress <= 100
    && (!j.workerDone ==> j.file.None? && j.jobDir.None? && !j.crashed)
    && (j.jobDir.Some? ==> j.jobDir == Some(JobDir(id)))
    && (j.file.Some? ==> j.jobDir.Some?)
    && (j.crashed ==> j.file.None? && j.jobDir.None?)
    && (j.workerDone && !j.crashed ==> JobDir(id) in dirs)
  }

  /** With the corrected worker, moreover, every worker that finished
      without crashing has left its directory on record, so that the fetch
      can remove it. */
  predicate JobValid(id: JobId, j: Job, dirs: set<string>) {
    JobSound(id, j, dirs) && (j.workerDone && !j.crashed ==> j.jobDir == Some(JobDir(id)))
  }

  ghost predicate Sound(s: Server) {
    forall id :: id in s.jobs ==> JobSound(id, s.jobs[id], s.dirs)
  }

  ghost predicate Valid(s: Server) {
    forall id :: id in s.jobs ==> JobValid(id, s.jobs[id], s.dirs)
  }

  /** One thing that can happen to the service. */
  datatype Action =
    | StartJob(url: Option<string>, selected: Option<DownloadOptions.SelectedFormat>,
               title: string, userId: Option<string>, newId: JobId)
    | CancelJob(id: JobId)
    | Hook(id: JobId, event: Progress.HookEvent)
    | WorkerFinished(id: JobId, output: Option<Artifact>)
    | WorkerCrashed(id: JobId, dirMade: bool)
    | FetchFile(id: JobId, consumed: bool)

  /** The end of the job's worker, in the given version. */
  function Finish(w: Worker, s: Server, id: JobId, output: Option<Artifact>): Server
    requires id in s.jobs && !s.jobs[id].workerDone
  {
    if w.AsWritten? then WorkerFinishAsWritten(s, id, output) else WorkerFinish(s, id, output)
  }

  /** The state after one action, or `None` when the action cannot happen
      then: a worker ends once, for a job in the registry, and a fetch of a
      job waits for (so comes after) its worker. */
  function Step(w: Worker, s: Server, a: Action): (r: Option<Server>)
    ensures a.StartJob? || a.CancelJob? || a.Hook? ==> r.Some?
    ensures (a.WorkerFinished? || a.WorkerCrashed?) ==>
      (r.Some? <==> a.id in s.jobs && !s.jobs[a.id].workerDone)
    ensures (a.WorkerFinished? || a.WorkerCrashed?) && r.Some? ==>
      a.id in r.value.jobs && r.value.jobs[a.id].workerDone
    ensures a.FetchFile? ==> (r.Some? <==> a.id !in s.jobs || s.jobs[a.id].workerDone)
  {
    match a
    case StartJob(url, sel, title, user, newId) => Some(StartDownload(s, url, sel, title, user, newId).1)
    case CancelJob(id) => Some(Cancel(s, id).1)
    case Hook(id, d) => Some(ApplyHook(s, id, d))
    case WorkerFinished(id, out) =>
      if id in s.jobs && !s.jobs[id].workerDone then Some(Finish(w, s, id, out)) else None
    case WorkerCrashed(id, dirMade) =>
      if id in s.jobs && !s.jobs[id].workerDone then Some(WorkerCrash(s, id, dirMade)) else None
    case FetchFile(id, consumed) =>
      if id in s.jobs && !s.jobs[id].workerDone then None else Some(Fetch(s, id, consumed).1)
  }

  /** The state after a sequence of actions, if each can happen in turn. */
  function Run(w: Worker, s: Server, acts: seq<Action>): Option<Server>
    decreases |acts|
  {
    if |acts| == 0 then Some(s)
    else match Step(w, s, acts[0])
      case None => None
      case Some(t) => Run(w, t, acts[1..])
  }

  /** Removing one job's directory leaves every other job sound. */
  lemma OtherJobsKeepDirs(s: Server, id: JobId, dirs: set<string>)
    requires Sound(s)
    requires dirs == s.dirs || dirs == s.dirs - {JobDir(id)}
    ensures forall other :: other in s.jobs && other != id ==> JobSound(other, s.jobs[other], dirs)
  {
    forall other | other in s.jobs && other != id
      ensures JobSound(other, s.jobs[other], dirs)
    {
      JobDirsDistinct(other, id);
    }
  }

  /** Every action keeps the service sound, whichever worker runs. */
  lemma StepPreservesSound(w: Worker, s: Server, a: Action)
    requires Sound(s)
    requires Step(w, s, a).Some?
    ensures Sound(Step(w, s, a).value)
  {
    var t := Step(w, s, a).value;
    match a
    case StartJob(url, sel, title, user, newId) =>
    case CancelJob(id) =>
    case Hook(id, d) =>
    case WorkerFinished(id, out) => FinishKeepsSound(w, s, id, out);
    case WorkerCrashed(id, dirMade) => CrashKeepsSound(s, id, dirMade);
    case FetchFile(id, consumed) =>
      if id in s.jobs && !s.jobs[id].crashed {
        assert JobSound(id, s.jobs[id], s.dirs);
        OtherJobsKeepDirs(s, id, t.dirs);
      }
  }

  lemma FinishKeepsSound(w: Worker, s: Server, id: JobId, out: Option<Artifact>)
    requires Sound(s) && id in s.jobs && !s.jobs[id].workerDone
    ensures Sound(Finish(w, s, id, out))
  {
    var t := Finish(w, s, id, out);
    forall other | other in t.jobs
      ensures JobSound(other, t.jobs[other], t.dirs)
    {
      assert JobSound(other, s.jobs[other], s.dirs);
    }
  }

  lemma CrashKeepsSound(s: Server, id: JobId, dirMade: bool)
    requires Sound(s) && id in s.jobs && !s.jobs[id].workerDone
    ensures Sound(WorkerCrash(s, id, dirMade))
  {
    var t := WorkerCrash(s, id, dirMade);
    forall other | other in t.jobs
      ensures JobSound(other, t.jobs[other], t.dirs)
    {
      assert JobSound(other, s.jobs[other], s.dirs);
    }
  }

  /** With the corrected worker, every action keeps the invariant. */
  lemma StepPreservesValid(s: Server, a: Action)
    requires Valid(s)
    requires Step(Corrected, s, a).Some?
    ensures Valid(Step(Corrected, s, a).value)
  {
    var t := Step(Corrected, s, a).value;
    StepPreservesSound(Corrected, s, a);
    assert Sound(t);
    forall id | id in t.jobs
      ensures JobValid(id, t.jobs[id], t.dirs)
    {
      assert JobSound(id, t.jobs[id], t.dirs);
      if id in s.jobs {
        assert JobValid(id, s.jobs[id], s.dirs);
      }
    }
  }

  /** Every run of actions from a sound state ends in a sound state,
      whichever worker runs. */
  lemma {:induction false} RunPreservesSound(w: Worker, s: Server, acts: seq<Action>)
    requires Sound(s)
    requires Run(w, s, acts).Some?
    ensures Sound(Run(w, s, acts).value)
    decreases |acts|
  {
    if |acts| > 0 {
      StepPreservesSound(w, s, acts[0]);
      RunPreservesSound(w, Step(w, s, acts[0]).value, acts[1..]);
    }
  }

  /** With the corrected worker, every run of actions from a valid state
      ends in a valid state. */
  lemma {:induction false} RunPreservesValid(s: Server, acts: seq<Action>)
    requires Valid(s)
    requires Run(Corrected, s, acts).Some?
    ensures Valid(Run(Corrected, s, acts).value)
    decreases |acts|
  {
    if |acts| > 0 {
      StepPreservesValid(s, acts[0]);
      RunPreservesValid(Step(Corrected, s, acts[0]).value, acts[1..]);
    }
  }

  /** An id not in the registry is answered 404 by cancel, progress and
      fetch alike, and none of them changes the state. */
  lemma UnknownJobNotFound(s: Server, id: JobId, consumed: bool)
    requires id !in s.jobs
    ensures CancelStatus(Cancel(s, id).0) == 404 && Cancel(s, id).1 == s
    ensures ProgressStatus(GetProgress(s, id)) == 404
    ensures FetchStatus(Fetch(s, id, consumed).0) == 404 && Fetch(s, id, consumed).1 == s
  {
  }

  /** After a fetch of a known job whose worker returned, in any outcome,
      the job is gone: polling, cancelling or fetching it again is answered
      "not found". A job whose worker raised is never forgotten: every
      fetch answers 500 and changes nothing, and polling still finds it. */
  lemma FetchForgetsJob(s: Server, id: JobId, consumed: bool)
    requires id in s.jobs && s.jobs[id].workerDone
    ensures !s.jobs[id].crashed ==>
      var t := Fetch(s, id, consumed).1;
      && GetProgress(t, id) == ProgressNotFound
      && Cancel(t, id).0 == CancelNotFound
      && Fetch(t, id, consumed).0 == FetchNotFound
    ensures s.jobs[id].crashed ==>
      && Fetch(s, id, consumed) == (FetchRaised, s)
      && FetchStatus(FetchRaised) == 500
      && GetProgress(s, id) == ProgressIs(s.jobs[id].progress)
  {
  }

  /** In a valid state a fetch removes the job's directory on every path
      of a worker that returned, except a stream the client abandoned
      before its end; after a worker that raised it changes nothing. */
  lemma FetchRemovesDirectory(s: Server, id: JobId, consumed: bool)
    requires Valid(s)
    requires id in s.jobs && s.jobs[id].workerDone
    ensures var (r, t) := Fetch(s, id, consumed);
      !s.jobs[id].crashed && (!r.Streamed? || consumed) ==> JobDir(id) !in t.dirs
    ensures var (r, t) := Fetch(s, id, consumed);
      r.Streamed? && !consumed ==> JobDir(id) in t.dirs
    ensures s.jobs[id].crashed ==> Fetch(s, id, consumed).1 == s
  {
    assert JobValid(id, s.jobs[id], s.dirs);
  }

  /** A cancel request that arrives after the worker produced a good file
      still wins: the fetch answers "cancelled", discards the file and
      removes the job's directory. */
  lemma CancelWinsOverCompletion(s: Server, id: JobId, consumed: bool)
    requires Sound(s)
    requires id in s.jobs && s.jobs[id].workerDone
    requires s.jobs[id].file.Some? && s.jobs[id].file.value.size >= MinFileSize
    ensures var c := Cancel(s, id).1;
      && Fetch(c, id, consumed).0 == FetchCancelled
      && JobDir(id) !in Fetch(c, id, consumed).1.dirs
      && id !in Fetch(c, id, consumed).1.jobs
  {
    assert JobSound(id, s.jobs[id], s.dirs);
  }

  /** A job cancelled before its worker finished is never streamed, even
      when the worker then produced a file: the fetch answers "cancelled"
      and forgets the job. Only the corrected worker lets it remove the
      job's directory; as written the directory stays on disk. */
  lemma CancelBeforeFinishNeverStreams(w: Worker, s: Server, id: JobId, output: Option<Artifact>, consumed: bool)
    requires Sound(s)
    requires id in s.jobs && !s.jobs[id].workerDone
    ensures var c := Cancel(s, id).1;
      var f := Finish(w, c, id, output);
      && f.jobs[id].file.None?
      && Fetch(f, id, consumed).0 == FetchCancelled
      && id !in Fetch(f, id, consumed).1.jobs
      && (JobDir(id) !in Fetch(f, id, consumed).1.dirs <==> w == Corrected)
  {
    assert JobSound(id, s.jobs[id], s.dirs);
  }

  /** A whole successful download: a job is started under a fresh id, the
      engine reports completion, the worker finds a file of at least 1024
      bytes, and the client fetches it to the end. The file is served under
      its base name, and the service is left exactly as it was before the
      start: nothing of the job remains in the registry or on disk. */
  lemma HappyPath(w: Worker, s0: Server, url: string, sel: DownloadOptions.SelectedFormat, title: string,
                  id: JobId, a: Artifact)
    requires id !in s0.jobs && JobDir(id) !in s0.dirs
    requires url != "" && a.size >= MinFileSize
    ensures
      var acts := [
        StartJob(Some(url), Some(sel), title, None, id),
        Hook(id, Progress.HookEvent(Some("finished"), None, None, None)),
        WorkerFinished(id, Some(a))];
      var s3 := Run(w, s0, acts);
      && s3.Some?
      && GetProgress(s3.value, id) == ProgressIs(100)
      && id in s3.value.jobs && s3.value.jobs[id].workerDone
      && Fetch(s3.value, id, true).0 == Streamed(Basename(a.path))
      && Fetch(s3.value, id, true).1 == s0
  {
    var acts := [
      StartJob(Some(url), Some(sel), title, None, id),
      Hook(id, Progress.HookEvent(Some("finished"), None, None, None)),
      WorkerFinished(id, Some(a))];
    var j1 := Job(url, sel, title, None, false, None, None, 0, false, false);
    var j2 := j1.(progress := 100);
    var j3 := j2.(file := Some(a), jobDir := Some(JobDir(id)), workerDone := true);
    var s1 := s0.(jobs := s0.jobs[id := j1]);
    var s2 := s0.(jobs := s0.jobs[id := j2]);
    var s3 := s0.(jobs := s0.jobs[id := j3], dirs := s0.dirs + {JobDir(id)});
    StartStep(w, s0, url, sel, title, id);
    FinishedHookStep(w, s1, id);
    UpdateTwice(s0.jobs, id, j1, j2);
    WorkerOutputStep(w, s2, id, a);
    UpdateTwice(s0.jobs, id, j2, j3);
    assert acts[1..][1..][1..] == [];
    assert Run(w, s2, acts[1..][1..]) == Run(w, s3, []);
    assert Run(w, s1, acts[1..]) == Run(w, s2, acts[1..][1..]);
    assert Run(w, s0, acts) == Some(s3);
    FetchStreamsStep(s3, id, a);
    UpdateRemove(s0.jobs, id, j3);
    AddRemove(s0.dirs, JobDir(id));
  }

  lemma UpdateTwice<K, V>(m: map<K, V>, k: K, v: V, w: V)
    ensures m[k := v][k := w] == m[k := w]
  {
  }

  lemma UpdateRemove<K, V>(m: map<K, V>, k: K, v: V)
    requires k !in m
    ensures m[k := v] - {k} == m
  {
  }

  lemma AddRemove<T>(s: set<T>, x: T)
    requires x !in s
    ensures s + {x} - {x} == s
  {
  }

  /** Fetching a finished, not cancelled job with a large enough file
      streams it, forgets the job and, once read, removes its directory. */
  lemma FetchStreamsStep(s: Server, id: JobId, a: Artifact)
    requires id in s.jobs && s.jobs[id].workerDone && !s.jobs[id].crashed && !s.jobs[id].cancelled
    requires s.jobs[id].file == Some(a) && a.size >= MinFileSize
    ensures Fetch(s, id, true) ==
      (Streamed(Basename(a.path)), s.(jobs := s.jobs - {id}, dirs := CleanupDir(s.dirs, s.jobs[id].jobDir)))
  {
  }

  /** Starting a job with a url and a format and no user adds its fresh record. */
  lemma StartStep(w: Worker, s: Server, url: string, sel: DownloadOptions.SelectedFormat, title: string, id: JobId)
    requires url != ""
    ensures Step(w, s, StartJob(Some(url), Some(sel), title, None, id)) ==
      Some(s.(jobs := s.jobs[id := Job(url, sel, title, None, false, None, None, 0, false, false)]))
  {
  }

  /** A "finished" event sets the job's progress to 100. */
  lemma FinishedHookStep(w: Worker, s: Server, id: JobId)
    requires id in s.jobs
    ensures Step(w, s, Hook(id, Progress.HookEvent(Some("finished"), None, None, None))) ==
      Some(s.(jobs := s.jobs[id := s.jobs[id].(progress := 100)]))
  {
  }

  /** A worker of a job not cancelled that found a file records it with the
      job directory; here both versions of the worker agree. */
  lemma WorkerOutputStep(w: Worker, s: Server, id: JobId, a: Artifact)
    requires id in s.jobs && !s.jobs[id].workerDone && !s.jobs[id].cancelled
    ensures Step(w, s, WorkerFinished(id, Some(a))) ==
      Some(s.(jobs := s.jobs[id := s.jobs[id].(file := Some(a), jobDir := Some(JobDir(id)), workerDone := true)],
              dirs := s.dirs + {JobDir(id)}))
  {
  }

  /** With the worker exactly as written, a job that is cancelled before
      its worker finishes, or whose download produced nothing, keeps its
      directory on disk after the fetch has removed its record, so no later
      request can remove it. */
  lemma UnrecordedOutputLeaksDirectoryAsWritten(s: Server, id: JobId, output: Option<Artifact>, consumed: bool)
    requires id in s.jobs && !s.jobs[id].workerDone
    requires s.jobs[id].file.None? && s.jobs[id].jobDir.None? && !s.jobs[id].crashed
    requires !Records(s.jobs[id], output)
    ensures var (r, t) := Fetch(WorkerFinishAsWritten(s, id, output), id, consumed);
      && (r == FetchCancelled || r == FileNotFoundOrEmpty)
      && id !in t.jobs
      && JobDir(id) in t.dirs
  {
    var w := WorkerFinishAsWritten(s, id, output);
    var j := w.jobs[id];
    assert j.jobDir.None? && j.workerDone && JobDir(id) in w.dirs;
    assert j.cancelled || j.file.None?;
    var (r, t) := Fetch(w, id, consumed);
    assert t.dirs == CleanupDir(w.dirs, None);
  }

  /** The concrete input: start a job, cancel it, let the worker find its
      file, fetch. The answer is "cancelled" and the record is gone, but the
      job's directory, file included, stays on disk. */
  lemma CancelledJobLeaksDirectoryAsWritten()
    ensures
      var s0 := Server(map[], map[], {});
      var sel := DownloadOptions.SelectedFormat(Some("18"), false, false);
      var s1 := StartDownload(s0, Some("https://example.org/v"), Some(sel), "Song", None, "j1").1;
      var s2 := Cancel(s1, "j1").1;
      var s3 := WorkerFinishAsWritten(s2, "j1", Some(Artifact("/tmp/ytjobs/j1/Song_0a1b2c3d.mp4", 4096)));
      var (r, s4) := Fetch(s3, "j1", true);
      && r == FetchCancelled && s4.jobs == map[] && s4.dirs == {JobDir("j1")}
      && !Valid(s3)
  {
    var s0 := Server(map[], map[], {});
    var sel := DownloadOptions.SelectedFormat(Some("18"), false, false);
    var s1 := StartDownload(s0, Some("https://example.org/v"), Some(sel), "Song", None, "j1").1;
    assert s1.jobs.Keys == {"j1"};
    UnrecordedOutputLeaksDirectoryAsWritten(Cancel(s1, "j1").1, "j1",
      Some(Artifact("/tmp/ytjobs/j1/Song_0a1b2c3d.mp4", 4096)), true);
  }
}

=== FILE: options.dfy ===
/** The extraction-engine options chosen by the download worker
    (`ydl_base_opts` and the option choice of `perform_download`). */
module DownloadOptions {
  import opened Common
  import Sanitize
  import Text

  /** The fields of the client's selected format that the worker reads. */
  datatype SelectedFormat = SelectedFormat(formatId: Option<string>, audioOnly: bool, requiresMerge: bool)

  /** The engine's audio-extraction postprocessor. */
  datatype Postprocessor = ExtractAudio(preferredCodec: string, preferredQuality: string)

  datatype EngineOptions = EngineOptions(
    quiet: bool,
    noPlaylist: bool,
    forceIpv4: bool,
    retries: nat,
    fragmentRetries: nat,
    concurrentFragments: nat,
    userAgent: string,
    cookieFile: Option<string>,
    format: Option<string>,
    outputTemplate: string,
    postprocessors: seq<Postprocessor>,
    mergeOutputFormat: Option<string>,
    remuxVideo: Option<string>)

  const MergeAudio := "bestaudio[ext=m4a]"

  /** Python's `str` of an optional string: an absent value prints "None". */
  function PyStr(s: Option<string>): string {
    s.GetOr("None")
  }

  /** `ydl_base_opts(cookie_file)`: fixed retry counts and client header, and
      the cookie file when one is given. */
  function BaseOptions(cookieFile: Option<string>, outputTemplate: string): (o: EngineOptions)
    ensures o.retries == 5 && o.fragmentRetries == 5 && o.concurrentFragments == 5
    ensures o.quiet && o.noPlaylist && o.forceIpv4
    ensures o.userAgent == "Mozilla/5.0"
    ensures o.cookieFile.Some? <==> TruthyText(cookieFile)
    ensures o.cookieFile.Some? ==> o.cookieFile == cookieFile
    ensures o.format == None && o.postprocessors == [] && o.mergeOutputFormat == None && o.remuxVideo == None
  {
    EngineOptions(true, true, true, 5, 5, 5, "Mozilla/5.0",
                  if TruthyText(cookieFile) then cookieFile else None,
                  None, outputTemplate, [], None, None)
  }

  /** The options for one download. Audio takes precedence: an audio-only
      selection is transcoded to 192 kbit/s mp3 whether or not it is also
      marked for merging; a video-only selection is fetched together with
      the best m4a audio and merged into mp4; anything else is fetched as
      selected. */
  function ChooseOptions(sel: SelectedFormat, cookieFile: Option<string>, outputTemplate: string): (o: EngineOptions)
    ensures o.outputTemplate == outputTemplate
    ensures o.retries == 5 && o.fragmentRetries == 5 && o.concurrentFragments == 5
    ensures o.quiet && o.noPlaylist && o.forceIpv4 && o.userAgent == "Mozilla/5.0"
    ensures o.cookieFile.Some? <==> TruthyText(cookieFile)
    ensures o.cookieFile.Some? ==> o.cookieFile == cookieFile
    ensures sel.audioOnly ==>
      o.postprocessors == [ExtractAudio("mp3", "192")] && o.format == sel.formatId &&
      o.mergeOutputFormat == None && o.remuxVideo == None
    ensures !sel.audioOnly && sel.requiresMerge ==>
      o.format == Some(PyStr(sel.formatId) + "+" + MergeAudio) && o.postprocessors == [] &&
      o.mergeOutputFormat == Some("mp4") && o.remuxVideo == Some("mp4")
    ensures !sel.audioOnly && !sel.requiresMerge ==>
      o.format == sel.formatId && o.postprocessors == [] &&
      o.mergeOutputFormat == None && o.remuxVideo == None
  {
    var base := BaseOptions(cookieFile, outputTemplate).(format := sel.formatId);
    if sel.audioOnly then base.(postprocessors := [ExtractAudio("mp3", "192")])
    else if sel.requiresMerge then
      base.(format := Some(PyStr(sel.formatId) + "+" + MergeAudio),
            mergeOutputFormat := Some("mp4"), remuxVideo := Some("mp4"))
    else base
  }

  /** The merge selector reads back as the selected format and the audio
      selector, provided the format id contains no '+'. */
  lemma MergeSelectorSplits(sel: SelectedFormat, cookieFile: Option<string>, outputTemplate: string)
    requires !sel.audioOnly && sel.requiresMerge
    requires '+' !in PyStr(sel.formatId)
    ensures var o := ChooseOptions(sel, cookieFile, outputTemplate);
      o.format.Some? && Text.Split(o.format.value, '+') == [PyStr(sel.formatId), MergeAudio]
  {
    var parts := [PyStr(sel.formatId), MergeAudio];
    assert Text.Join(parts[1..], '+') == MergeAudio;
    assert Text.Join(parts, '+') == PyStr(sel.formatId) + "+" + MergeAudio;
    Text.SplitJoin(parts, '+');
  }

  /** The output file stem: the sanitised title, '_', and a random suffix
      (eight hex digits of a fresh UUID in the service). */
  function OutputStem(title: string, suffix: string): (stem: string)
    ensures |stem| == |Sanitize.SanitizeFilename(title)| + 1 + |suffix|
    ensures stem[..|Sanitize.SanitizeFilename(title)|] == Sanitize.SanitizeFilename(title)
    ensures stem[|Sanitize.SanitizeFilename(title)|] == '_'
    ensures stem[|stem| - |suffix|..] == suffix
  {
    Sanitize.SanitizeFilename(title) + "_" + suffix
  }

  /** The engine's output template inside the job directory; the engine
      fills in the extension. */
  function OutputTemplate(jobDir: string, stem: string): string {
    jobDir + "/" + stem + ".%(ext)s"
  }

  /** Two jobs with the same title but different suffixes never share an
      output stem. */
  lemma StemsDiffer(title: string, s1: string, s2: string)
    requires s1 != s2
    ensures OutputStem(title, s1) != OutputStem(title, s2)
  {
  }
}

=== FILE: progress.dfy ===
/** The percentage computed by the download progress hook
    (`make_progress_hook`). */
module Progress {
  import opened Common

  /** The progress dictionary the extraction engine passes to the hook.
      A missing key is `None`. */
  datatype HookEvent = HookEvent(
    status: Option<string>,
    downloadedBytes: Option<int>,
    totalBytes: Option<int>,
    totalBytesEstimate: Option<int>)

  /** Python's `int(a / b)` for `b > 0`: the quotient truncated toward zero. */
  function TruncDiv(a: int, b: int): (q: int)
    requires b > 0
    ensures a >= 0 ==> q * b <= a < (q + 1) * b
    ensures a < 0 ==> (q - 1) * b < a <= q * b
  {
    if a >= 0 then a / b else -((-a) / b)
  }

  function Clamp(p: int): (r: int)
    ensures 0 <= r <= 100
    ensures 0 <= p <= 100 ==> r == p
    ensures p < 0 ==> r == 0
    ensures p > 100 ==> r == 100
  {
    if p < 0 then 0 else if p > 100 then 100 else p
  }

  /** The first truthy total: the exact size, else the estimate, else 0. */
  function Total(d: HookEvent): (t: int)
    ensures TruthyInt(d.totalBytes) ==> t == d.totalBytes.value
    ensures !TruthyInt(d.totalBytes) ==> t == d.totalBytesEstimate.GetOr(0)
  {
    if TruthyInt(d.totalBytes) then d.totalBytes.value
    else if TruthyInt(d.totalBytesEstimate) then d.totalBytesEstimate.value
    else 0
  }

  /** The percentage stored while downloading: downloaded * 100 / total,
      truncated and clamped to 0..100, or 0 when no positive total is known. */
  function Percent(d: HookEvent): (p: int)
    ensures 0 <= p <= 100
    ensures Total(d) <= 0 ==> p == 0
  {
    var downloaded := d.downloadedBytes.GetOr(0);
    var total := Total(d);
    Clamp(if total > 0 then TruncDiv(downloaded * 100, total) else 0)
  }

  /** The progress value the hook writes into the job record, or `None` when
      the event is neither "downloading" nor "finished". */
  function HookUpdate(d: HookEvent): (u: Option<int>)
    ensures u.Some? <==> d.status == Some("downloading") || d.status == Some("finished")
    ensures u.Some? ==> 0 <= u.value <= 100
    ensures d.status == Some("downloading") ==> u == Some(Percent(d))
    ensures d.status == Some("finished") ==> u == Some(100)
  {
    if d.status == Some("downloading") then Some(Percent(d))
    else if d.status == Some("finished") then Some(100)
    else None
  }

  /** Within the expected range the percentage is the whole number of
      hundredths downloaded: p * total <= downloaded * 100 < (p + 1) * total. */
  lemma PercentIsFloor(d: HookEvent)
    requires Total(d) > 0
    requires 0 <= d.downloadedBytes.GetOr(0) <= Total(d)
    ensures Percent(d) * Total(d) <= d.downloadedBytes.GetOr(0) * 100 < (Percent(d) + 1) * Total(d)
  {
    var n, t := d.downloadedBytes.GetOr(0), Total(d);
    var q := TruncDiv(n * 100, t);
    assert q * t <= n * 100 < (q + 1) * t;
  }

  /** A complete download reports 100 percent. */
  lemma CompleteIsHundred(d: HookEvent)
    requires Total(d) > 0 && d.downloadedBytes.GetOr(0) == Total(d)
    ensures Percent(d) == 100
  {
    var t := Total(d);
    var q := TruncDiv(t * 100, t);
    MulCancel(q, 101, t);
    MulCancel(100, q + 1, t);
  }

  /** A positive factor can be cancelled from a strict inequality. */
  lemma MulCancel(x: int, y: int, t: int)
    requires t > 0 && x * t < y * t
    ensures x < y
  {
  }

  /** For a fixed total, more bytes downloaded never lowers the percentage. */
  lemma PercentMonotone(d1: HookEvent, d2: HookEvent)
    requires Total(d1) == Total(d2)
    requires d1.downloadedBytes.GetOr(0) <= d2.downloadedBytes.GetOr(0)
    ensures Percent(d1) <= Percent(d2)
  {
    var t := Total(d1);
    if t > 0 {
      var a, b := d1.downloadedBytes.GetOr(0) * 100, d2.downloadedBytes.GetOr(0) * 100;
      TruncDivMonotone(a, b, t);
    }
  }

  lemma TruncDivMonotone(a: int, b: int, t: int)
    requires t > 0 && a <= b
    ensures TruncDiv(a, t) <= TruncDiv(b, t)
  {
    if a >= 0 {
      TruncDivMonotoneNonNeg(a, b, t);
    } else if b >= 0 {
      TruncDivSigns(a, b, t);
    } else {
      TruncDivMonotoneNeg(a, b, t);
    }
  }

  lemma TruncDivMonotoneNonNeg(a: int, b: int, t: int)
    requires t > 0 && 0 <= a <= b
    ensures TruncDiv(a, t) <= TruncDiv(b, t)
  {
    var qa, qb := TruncDiv(a, t), TruncDiv(b, t);
    assert qa * t <= a && b < (qb + 1) * t;
    MulCancel(qa, qb + 1, t);
  }

  lemma TruncDivSigns(a: int, b: int, t: int)
    requires t > 0 && a < 0 <= b
    ensures TruncDiv(a, t) <= 0 <= TruncDiv(b, t)
  {
    var qa, qb := TruncDiv(a, t), TruncDiv(b, t);
    assert (qa - 1) * t < 0 * t;
    MulCancel(qa - 1, 0, t);
    assert 0 * t < (qb + 1) * t;
    MulCancel(0, qb + 1, t);
  }

  lemma TruncDivMonotoneNeg(a: int, b: int, t: int)
    requires t > 0 && a <= b < 0
    ensures TruncDiv(a, t) <= TruncDiv(b, t)
  {
    var qa, qb := TruncDiv(a, t), TruncDiv(b, t);
    assert (qa - 1) * t < a && b <= qb * t;
    MulCancel(qa - 1, qb, t);
  }
}

=== FILE: registry.dfy ===
/** The job registry of the download service (`active_downloads`) and the
    operations on it: start, cancel, progress, the worker's completion, the
    progress hook's writes, and the file fetch. The worker pool and the
    join on a job's future are replaced by an explicit "worker finished"
    step, which a fetch must follow. */
module Registry {
  import opened Common
  import Progress
  import DownloadOptions

  type JobId = string

  /** The file the worker found in the job directory, with its size in bytes
      as the filesystem reports it when the file is fetched. */
  datatype Artifact = Artifact(path: string, size: int)

  /** One `active_downloads` record, with the arguments its worker was
      submitted with. `cancelled` is the cancel event; `workerDone` says
      whether the worker's future has completed, and `crashed` whether it
      completed by raising, so that joining it raises again. */
  datatype Job = Job(
    url: string,
    selected: DownloadOptions.SelectedFormat,
    title: string,
    cookieFile: Option<string>,
    cancelled: bool,
    file: Option<Artifact>,
    jobDir: Option<string>,
    progress: int,
    workerDone: bool,
    crashed: bool)

  /** The service state: the registry, each user's uploaded cookie file, and
      the job directories present on disk. */
  datatype Server = Server(jobs: map<JobId, Job>, cookieFiles: map<string, string>, dirs: set<string>)

  datatype StartResult = MissingData | Started(jobId: JobId)
  datatype CancelResult = CancelNotFound | CancelAcknowledged
  datatype ProgressResult = ProgressNotFound | ProgressIs(percent: int)
  /** `FetchRaised` is the server error Flask answers when the join on a
      crashed worker re-raises its exception. */
  datatype FetchResult = FetchNotFound | FetchRaised | FetchCancelled | FileNotFoundOrEmpty | Streamed(filename: string)

  /** The smallest file size, in bytes, that is served. */
  const MinFileSize := 1024

  /** The HTTP status each answer is sent with. */
  function StartStatus(r: StartResult): int {
    if r.MissingData? then 400 else 200
  }

  function CancelStatus(r: CancelResult): int {
    if r.CancelNotFound? then 404 else 200
  }

  function ProgressStatus(r: ProgressResult): int {
    if r.ProgressNotFound? then 404 else 200
  }

  function FetchStatus(r: FetchResult): int {
    match r
    case FetchNotFound => 404
    case FetchRaised => 500
    case FetchCancelled => 400
    case FileNotFoundOrEmpty => 500
    case Streamed(_) => 200
  }

  /** The job's private directory, relative to the system temp directory. */
  function JobDir(id: JobId): string {
    "ytjobs/" + id
  }

  /** Distinct jobs never share a directory. */
  lemma JobDirsDistinct(a: JobId, b: JobId)
    requires a != b
    ensures JobDir(a) != JobDir(b)
  {
    assert JobDir(a)[7..] == a && JobDir(b)[7..] == b;
  }

  /** The last component of a path (`os.path.basename`). */
  function Basename(p: string): (b: string)
    ensures '/' !in b
    ensures |b| <= |p| && p[|p| - |b|..] == b
    ensures |b| < |p| ==> p[|p| - |b| - 1] == '/'
    decreases |p|
  {
    if |p| == 0 || p[|p| - 1] == '/' then ""
    else
      var q := p[..|p| - 1];
      var b := Basename(q);
      assert q[|q| - |b|..] == b;
      var r := b + [p[|p| - 1]];
      assert p[|p| - |r|..] == q[|q| - |b|..] + [p[|p| - 1]];
      assert '/' !in r;
      r
  }

  /** The base name is exactly what follows the last '/'. */
  lemma BasenameAfterLastSlash(p: string, i: int)
    requires 0 <= i < |p| && p[i] == '/'
    requires forall k :: i < k < |p| ==> p[k] != '/'
    ensures Basename(p) == p[i + 1..]
  {
  }

  /** The cookie file uploaded for `userId`, if any. */
  function CookieFor(s: Server, userId: Option<string>): Option<string> {
    if userId.Some? && userId.value in s.cookieFiles then Some(s.cookieFiles[userId.value]) else None
  }

  /** `start_download`. Without a truthy url or a selected format nothing
      changes and the answer is an error. Otherwise a record for `newId`
      (a fresh UUID in the service) is inserted with progress 0, no file,
      the cancel flag clear and the worker not yet finished; no other
      record changes. */
  function StartDownload(s: Server, url: Option<string>, selected: Option<DownloadOptions.SelectedFormat>,
                         title: string, userId: Option<string>, newId: JobId): (res: (StartResult, Server))
    ensures !TruthyText(url) || selected.None? <==> res.0 == MissingData
    ensures StartStatus(res.0) == 400 <==> res.0 == MissingData
    ensures res.0 == MissingData ==> res.1 == s
    ensures res.0 != MissingData ==>
      && res.0 == Started(newId)
      && res.1.jobs.Keys == s.jobs.Keys + {newId}
      && var j := res.1.jobs[newId];
         j.progress == 0 && j.file == None && j.jobDir == None && !j.cancelled && !j.workerDone && !j.crashed
         && j.url == url.value && j.selected == selected.value && j.title == title
         && j.cookieFile == CookieFor(s, userId)
    ensures forall id :: id in s.jobs && id != newId ==> id in res.1.jobs && res.1.jobs[id] == s.jobs[id]
    ensures res.1.dirs == s.dirs && res.1.cookieFiles == s.cookieFiles
  {
    if !TruthyText(url) || selected.None? then (MissingData, s)
    else
      var job := Job(url.value, selected.value, title, CookieFor(s, userId), false, None, None, 0, false, false);
      (Started(newId), s.(jobs := s.jobs[newId := job]))
  }

  /** `cancel`: sets the job's cancel flag and nothing else; the record stays
      in the registry. An unknown id is not found and changes nothing. */
  function Cancel(s: Server, id: JobId): (res: (CancelResult, Server))
    ensures id !in s.jobs <==> res.0 == CancelNotFound
    ensures id !in s.jobs ==> res.1 == s
    ensures id in s.jobs ==>
      && res.1.jobs.Keys == s.jobs.Keys
      && res.1.jobs[id] == s.jobs[id].(cancelled := true)
      && res.1.dirs == s.dirs && res.1.cookieFiles == s.cookieFiles
    ensures forall other :: other in s.jobs && other != id ==> res.1.jobs[other] == s.jobs[other]
  {
    if id !in s.jobs then (CancelNotFound, s)
    else (CancelAcknowledged, s.(jobs := s.jobs[id := s.jobs[id].(cancelled := true)]))
  }

  /** `get_progress`: the stored percentage, or not found. */
  function GetProgress(s: Server, id: JobId): (r: ProgressResult)
    ensures id !in s.jobs <==> r == ProgressNotFound
    ensures id in s.jobs ==> r == ProgressIs(s.jobs[id].progress)
  {
    if id in s.jobs then ProgressIs(s.jobs[id].progress) else ProgressNotFound
  }

  /** One call of the job's progress hook: a "downloading" or "finished"
      event overwrites the job's progress; any other event, or an id no
      longer in the registry, leaves the state as it is. */
  function ApplyHook(s: Server, id: JobId, d: Progress.HookEvent): (t: Server)
    ensures id !in s.jobs || Progress.HookUpdate(d).None? ==> t == s
    ensures t.jobs.Keys == s.jobs.Keys && t.dirs == s.dirs && t.cookieFiles == s.cookieFiles
    ensures id in s.jobs && d.status == Some("finished") ==> t.jobs[id].progress == 100
    ensures id in s.jobs && d.status == Some("downloading") ==> t.jobs[id].progress == Progress.Percent(d)
    ensures id in s.jobs ==> t.jobs[id] == s.jobs[id].(progress := t.jobs[id].progress)
    ensures forall other :: other in s.jobs && other != id ==> t.jobs[other] == s.jobs[other]
  {
    match Progress.HookUpdate(d)
    case None => s
    case Some(p) =>
      if id in s.jobs then s.(jobs := s.jobs[id := s.jobs[id].(progress := p)]) else s
  }

  /** The options the job's worker hands to the extraction engine, given
      the random suffix of its output file name. */
  function WorkerOptions(id: JobId, j: Job, suffix: string): (o: DownloadOptions.EngineOptions)
    ensures o.cookieFile.Some? <==> TruthyText(j.cookieFile)
    ensures o.cookieFile.Some? ==> o.cookieFile == j.cookieFile
    ensures o.retries == 5 && o.fragmentRetries == 5 && o.concurrentFragments == 5
    ensures o.quiet && o.noPlaylist && o.forceIpv4 && o.userAgent == "Mozilla/5.0"
    ensures j.selected.audioOnly ==>
      o.postprocessors == [DownloadOptions.ExtractAudio("mp3", "192")] && o.format == j.selected.formatId &&
      o.mergeOutputFormat == None && o.remuxVideo == None
    ensures !j.selected.audioOnly && j.selected.requiresMerge ==>
      o.format == Some(DownloadOptions.PyStr(j.selected.formatId) + "+" + DownloadOptions.MergeAudio) &&
      o.postprocessors == [] && o.mergeOutputFormat == Some("mp4") && o.remuxVideo == Some("mp4")
    ensures !j.selected.audioOnly && !j.selected.requiresMerge ==>
      o.format == j.selected.formatId && o.postprocessors == [] &&
      o.mergeOutputFormat == None && o.remuxVideo == None
    ensures o.outputTemplate ==
      DownloadOptions.OutputTemplate(JobDir(id), DownloadOptions.OutputStem(j.title, suffix))
  {
    DownloadOptions.ChooseOptions(j.selected, j.cookieFile,
      DownloadOptions.OutputTemplate(JobDir(id), DownloadOptions.OutputStem(j.title, suffix)))
  }

  /** Whether the worker records its output: it found a file and the job
      was not cancelled by then. */
  predicate Records(j: Job, output: Option<Artifact>) {
    output.Some? && !j.cancelled
  }

  /** The end of `perform_download` exactly as written: the job directory
      (created when the worker started) exists, but the record remembers
      it only together with a recorded file. */
  function WorkerFinishAsWritten(s: Server, id: JobId, output: Option<Artifact>): (t: Server)
    requires id in s.jobs && !s.jobs[id].workerDone
    ensures t.jobs.Keys == s.jobs.Keys && t.dirs == s.dirs + {JobDir(id)}
    ensures t.jobs[id].workerDone
    ensures Records(s.jobs[id], output) ==>
      t.jobs[id].file == output && t.jobs[id].jobDir == Some(JobDir(id))
    ensures !Records(s.jobs[id], output) ==>
      t.jobs[id].file == s.jobs[id].file && t.jobs[id].jobDir == s.jobs[id].jobDir
    ensures t.jobs[id] == s.jobs[id].(file := t.jobs[id].file, jobDir := t.jobs[id].jobDir, workerDone := true)
    ensures t.cookieFiles == s.cookieFiles
    ensures forall other :: other in s.jobs && other != id ==> t.jobs[other] == s.jobs[other]
  {
    var j := s.jobs[id];
    var j' := if Records(j, output) then j.(file := output, jobDir := Some(JobDir(id))) else j;
    s.(jobs := s.jobs[id := j'.(workerDone := true)], dirs := s.dirs + {JobDir(id)})
  }

  /** The end of `perform_download`, corrected to remember the job directory
      whatever the outcome, so that the fetch can always remove it. A file
      is recorded only when the worker found one and the job was not
      cancelled by then, and the file field is left as it was otherwise;
      nothing else in the record changes. */
  function WorkerFinish(s: Server, id: JobId, output: Option<Artifact>): (t: Server)
    requires id in s.jobs && !s.jobs[id].workerDone
    ensures t.jobs.Keys == s.jobs.Keys && t.dirs == s.dirs + {JobDir(id)}
    ensures t.cookieFiles == s.cookieFiles
    ensures t.jobs[id].workerDone && t.jobs[id].jobDir == Some(JobDir(id))
    ensures output.Some? && !s.jobs[id].cancelled ==> t.jobs[id].file == output
    ensures output.None? || s.jobs[id].cancelled ==> t.jobs[id].file == s.jobs[id].file
    ensures t.jobs[id] == s.jobs[id].(file := t.jobs[id].file, jobDir := t.jobs[id].jobDir, workerDone := true)
    ensures forall other :: other in s.jobs && other != id ==> t.jobs[other] == s.jobs[other]
  {
    var j := s.jobs[id];
    var j' := (if Records(j, output) then j.(file := output) else j)
              .(jobDir := Some(JobDir(id)), workerDone := true);
    s.(jobs := s.jobs[id := j'], dirs := s.dirs + {JobDir(id)})
  }

  /** `perform_download` raising before its `try`: the title, the format
      fields and the options are read there, so a malformed request (a
      selected format that is not an object, say) ends the worker with an
      exception. `dirMade` says whether the job directory had been created
      by then. Nothing is recorded. */
  function WorkerCrash(s: Server, id: JobId, dirMade: bool): (t: Server)
    requires id in s.jobs && !s.jobs[id].workerDone
    ensures t.jobs.Keys == s.jobs.Keys && t.cookieFiles == s.cookieFiles
    ensures t.dirs == if dirMade then s.dirs + {JobDir(id)} else s.dirs
    ensures t.jobs[id] == s.jobs[id].(workerDone := true, crashed := true)
    ensures forall other :: other in s.jobs && other != id ==> t.jobs[other] == s.jobs[other]
  {
    s.(jobs := s.jobs[id := s.jobs[id].(workerDone := true, crashed := true)],
       dirs := if dirMade then s.dirs + {JobDir(id)} else s.dirs)
  }

  /** `cleanup_dir`: removes the recorded job directory, if any. */
  function CleanupDir(dirs: set<string>, jobDir: Option<string>): (r: set<string>)
    ensures jobDir.None? ==> r == dirs
    ensures jobDir.Some? ==> r == dirs - {jobDir.value}
  {
    if jobDir.Some? then dirs - {jobDir.value} else dirs
  }

  /** `get_file`, after joining the job's worker. If the worker raised, the
      join raises again: the answer is a server error and nothing changes,
      so the record and the directory stay. Otherwise a set cancel flag wins
      over a produced file; a missing file or one under 1024 bytes is
      reported as not found or empty; otherwise the file is streamed under
      its base name. In these three outcomes the record is removed. The
      directory is removed on the two error paths at once, and after a
      stream only once the client has read it to the end (`consumed`). An
      unknown id is not found and changes nothing. */
  function Fetch(s: Server, id: JobId, consumed: bool): (res: (FetchResult, Server))
    requires id in s.jobs ==> s.jobs[id].workerDone
    ensures id !in s.jobs <==> res.0 == FetchNotFound
    ensures id !in s.jobs ==> res.1 == s
    ensures id in s.jobs ==> (s.jobs[id].crashed <==> res.0 == FetchRaised)
    ensures id in s.jobs && s.jobs[id].crashed ==> res.1 == s
    ensures id in s.jobs && !s.jobs[id].crashed ==>
      res.1.jobs == s.jobs - {id} && res.1.cookieFiles == s.cookieFiles
    ensures id in s.jobs && !s.jobs[id].crashed ==> (s.jobs[id].cancelled <==> res.0 == FetchCancelled)
    ensures id in s.jobs && !s.jobs[id].crashed && !s.jobs[id].cancelled ==>
      ((s.jobs[id].file.None? || s.jobs[id].file.value.size < MinFileSize) <==> res.0 == FileNotFoundOrEmpty)
    ensures res.0.Streamed? ==> res.0.filename == Basename(s.jobs[id].file.value.path)
    ensures id in s.jobs && !s.jobs[id].crashed ==>
      res.1.dirs == if res.0.Streamed? && !consumed then s.dirs else CleanupDir(s.dirs, s.jobs[id].jobDir)
  {
    if id !in s.jobs then (FetchNotFound, s)
    else if s.jobs[id].crashed then (FetchRaised, s)
    else
      var j := s.jobs[id];
      var removed := s.(jobs := s.jobs - {id});
      if j.cancelled then
        (FetchCancelled, removed.(dirs := CleanupDir(s.dirs, j.jobDir)))
      else if j.file.None? || j.file.value.size < MinFileSize then
        (FileNotFoundOrEmpty, removed.(dirs := CleanupDir(s.dirs, j.jobDir)))
      else
        (Streamed(Basename(j.file.value.path)),
         if consumed then removed.(dirs := CleanupDir(s.dirs, j.jobDir)) else removed)
  }
}

=== FILE: sanitize.dfy ===
/** The title sanitiser of the download service (`sanitize_filename`). */
module Sanitize {

  const DefaultName := "youtube_download"

  /** Python's `str.isalnum`, restricted to ASCII letters and digits. */
  predicate IsAlnum(c: char) {
    ('a' <= c <= 'z') || ('A' <= c <= 'Z') || ('0' <= c <= '9')
  }

  /** A character the sanitiser keeps. */
  predicate Allowed(c: char) {
    IsAlnum(c) || c == ' ' || c == '_' || c == '-' || c == '.'
  }

  predicate AllAllowed(s: string) {
    forall i :: 0 <= i < |s| ==> Allowed(s[i])
  }

  /** The allowed characters of `s`, in order. */
  function KeepAllowed(s: string): (r: string)
    ensures AllAllowed(r)
    ensures |r| <= |s|
    decreases |s|
  {
    if |s| == 0 then ""
    else if Allowed(s[0]) then [s[0]] + KeepAllowed(s[1..])
    else KeepAllowed(s[1..])
  }

  /** Each allowed character is kept as often as it occurs, every other
      character is dropped. */
  lemma {:induction false} KeepAllowedCounts(s: string, c: char)
    ensures multiset(KeepAllowed(s))[c] == if Allowed(c) then multiset(s)[c] else 0
    decreases |s|
  {
    if |s| > 0 {
      KeepAllowedCounts(s[1..], c);
      assert s == [s[0]] + s[1..];
      assert multiset(s) == multiset([s[0]]) + multiset(s[1..]);
    }
  }

  /** The filter works character by character and keeps the order: a
      concatenation is filtered part by part, and a single character is
      kept exactly when it is allowed. */
  lemma {:induction false} KeepAllowedAppend(a: string, b: string)
    ensures KeepAllowed(a + b) == KeepAllowed(a) + KeepAllowed(b)
    ensures |a| == 1 ==> KeepAllowed(a) == if Allowed(a[0]) then a else ""
    decreases |a|
  {
    if |a| == 0 {
      assert a + b == b;
    } else {
      var c, t := a[0], a[1..];
      assert a == [c] + t && a + b == [c] + (t + b);
      KeepAllowedCons(c, t + b);
      KeepAllowedCons(c, t);
      KeepAllowedAppend(t, b);
      var h, x, y := if Allowed(c) then [c] else "", KeepAllowed(t), KeepAllowed(b);
      assert h + (x + y) == (h + x) + y;
      if |a| == 1 {
        assert t == "" && a == [c];
      }
    }
  }

  lemma KeepAllowedCons(c: char, s: string)
    ensures KeepAllowed([c] + s) == (if Allowed(c) then [c] else "") + KeepAllowed(s)
  {
    assert ([c] + s)[0] == c && ([c] + s)[1..] == s;
  }

  predicate AllSpaces(s: string) {
    forall i :: 0 <= i < |s| ==> s[i] == ' '
  }

  /** `s` without its trailing spaces. After `KeepAllowed` the space is the
      only whitespace character left, so this is Python's `rstrip()` there. */
  function TrimEnd(s: string): (r: string)
    ensures |r| <= |s| && r == s[..|r|]
    ensures forall i :: |r| <= i < |s| ==> s[i] == ' '
    ensures |r| > 0 ==> r[|r| - 1] != ' '
    ensures |r| == 0 <==> AllSpaces(s)
    decreases |s|
  {
    if |s| == 0 || s[|s| - 1] != ' ' then s else TrimEnd(s[..|s| - 1])
  }

  /** `sanitize_filename(title)`; a missing title is the empty string. The
      result keeps only allowed characters, never ends in a space, is never
      empty, and is the input's allowed characters with trailing spaces
      dropped unless nothing survives, in which case it is `DefaultName`. */
  function SanitizeFilename(title: string): (r: string)
    ensures |r| > 0 && AllAllowed(r) && r[|r| - 1] != ' '
    ensures var kept := KeepAllowed(title);
      AllSpaces(kept) ==> r == DefaultName
    ensures var kept := KeepAllowed(title);
      !AllSpaces(kept) ==>
        |r| <= |kept| && r == kept[..|r|] &&
        forall i :: |r| <= i < |kept| ==> kept[i] == ' '
  {
    var kept := KeepAllowed(title);
    var t := TrimEnd(kept);
    if |t| == 0 then DefaultName else t
  }

  /** `KeepAllowed` leaves a string of allowed characters unchanged. */
  lemma {:induction false} KeepAllowedFixes(s: string)
    requires AllAllowed(s)
    ensures KeepAllowed(s) == s
    decreases |s|
  {
    if |s| > 0 {
      KeepAllowedFixes(s[1..]);
      assert [s[0]] + s[1..] == s;
    }
  }

  /** Sanitising a sanitised title changes nothing. */
  lemma SanitizeIdempotent(title: string)
    ensures SanitizeFilename(SanitizeFilename(title)) == SanitizeFilename(title)
  {
    var r := SanitizeFilename(title);
    KeepAllowedFixes(r);
    assert TrimEnd(r) == r;
  }
}

=== FILE: text.dfy ===
/** Joining strings with a one-character separator (JavaScript's
    `Array.prototype.join`) and the inverse split. */
module Text {

  /** `parts` joined with `sep` between neighbours; no leading or trailing
      separator. An empty list joins to the empty string. */
  function Join(parts: seq<string>, sep: char): (s: string)
    ensures |parts| == 1 ==> s == parts[0]
    decreases |parts|
  {
    if |parts| == 0 then ""
    else if |parts| == 1 then parts[0]
    else parts[0] + [sep] + Join(parts[1..], sep)
  }

  /** The pieces of `s` between occurrences of `sep`; always at least one. */
  function Split(s: string, sep: char): (parts: seq<string>)
    ensures |parts| >= 1
    decreases |s|
  {
    if |s| == 0 then [""]
    else
      var rest := Split(s[1..], sep);
      if s[0] == sep then [""] + rest else [[s[0]] + rest[0]] + rest[1..]
  }

  predicate Free(s: string, sep: char) {
    sep !in s
  }

  predicate AllFree(parts: seq<string>, sep: char) {
    forall i :: 0 <= i < |parts| ==> Free(parts[i], sep)
  }

  /** A string without the separator is a single piece. */
  lemma {:induction false} SplitFree(s: string, sep: char)
    requires Free(s, sep)
    ensures Split(s, sep) == [s]
    decreases |s|
  {
    if |s| > 0 {
      SplitFree(s[1..], sep);
      assert [s[0]] + s[1..] == s;
    }
  }

  /** Splitting `a + sep + b` yields `a` followed by the pieces of `b`. */
  lemma {:induction false} SplitCons(a: string, sep: char, b: string)
    requires Free(a, sep)
    ensures Split(a + [sep] + b, sep) == [a] + Split(b, sep)
    decreases |a|
  {
    var s := a + [sep] + b;
    if |a| == 0 {
      assert s[1..] == b;
    } else {
      assert s[1..] == a[1..] + [sep] + b;
      SplitCons(a[1..], sep, b);
      assert [a[0]] + a[1..] == a;
    }
  }

  /** Split undoes Join when no part contains the separator. */
  lemma {:induction false} SplitJoin(parts: seq<string>, sep: char)
    requires |parts| >= 1
    requires AllFree(parts, sep)
    ensures Split(Join(parts, sep), sep) == parts
    decreases |parts|
  {
    if |parts| == 1 {
      SplitFree(parts[0], sep);
    } else {
      SplitJoin(parts[1..], sep);
      SplitCons(parts[0], sep, Join(parts[1..], sep));
      assert [parts[0]] + parts[1..] == parts;
    }
  }

  /** Characters other than the separator come only from the parts. */
  lemma {:induction false} JoinChars(parts: seq<string>, sep: char, c: char)
    requires c in Join(parts, sep)
    requires c != sep
    ensures exists i :: 0 <= i < |parts| && c in parts[i]
    decreases |parts|
  {
    if |parts| > 1 {
      var rest := Join(parts[1..], sep);
      assert Join(parts, sep) == parts[0] + [sep] + rest;
      if c !in parts[0] {
        JoinChars(parts[1..], sep, c);
        var i :| 0 <= i < |parts[1..]| && c in parts[1..][i];
        assert c in parts[i + 1];
      }
    }
  }
}
